=== FILE: README.md ===
# Archive extraction and directory sizes, verified

This project models the two pieces of logic in the file manager's HTTP layer
that act on user-chosen paths:

- **The archive extractor** (`http/extract.go`), covering:
  - the extension helpers `getArchiveBaseName` and `isArchiveFile`;
  - the handler's extension dispatch;
  - the zip filename repair `decodeZipFileName`;
  - the zip-slip gate, which converts backslashes, runs `path.Clean`, then
    refuses a `../` prefix, a `/` prefix or a `/../` substring;
  - the per-entry steps of `extractZipFile` and `extractTarReader`;
  - the loops that stop at the first error;
  - the handler from the destination check on.

  Archives are given already decoded. A zip archive is a sequence of
  central-directory records. A tar archive is a sequence of headers with
  their data, plus how the reader ended (`io.EOF` or an error). The afero
  filesystem is a map from segment lists to nodes (`VirtualFs`), and Go's
  `path.Clean` and `path.Join` are modelled lexically (`Paths`).
- **The directory-size aggregator** `computeDirSize` (`http/dirsize.go`).
  It walks depth-first with an explicit stack, skips entries that fail the
  authorization check, counts symbolic-link directories without descending
  into them, and returns three zeros on any error. The directory tree is
  data. The cancellation oracle `ctx(k)` is what `ctx.Err()` returns at its
  k-th call.

Modules:

| file | module | models |
|---|---|---|
| text.dfy | `Text` | byte strings, `strings.HasPrefix/HasSuffix/Contains/ReplaceAll`, the suffix test on `strings.ToLower` |
| paths.dfy | `Paths` | `path.Clean`, `path.Join`, resolution of a path to segments |
| archive_names.dfy | `ArchiveNames` | `getArchiveBaseName`, `getSupportedArchiveFormats`, `isArchiveFile`, the dispatch |
| zip_names.dfy | `ZipNames` | `decodeZipFileName`, UTF-8 validity (RFC 3629, section 4) |
| path_gate.dfy | `PathGate` | the zip-slip gate and exactly what it accepts |
| vfs.dfy | `VirtualFs` | `MkdirAll` and create-truncate-write on a tree |
| extract.dfy | `Extract` | per-entry steps, the loops, the handler |
| safety.dfy | `Safety` | confinement of every extraction to the destination; a zip-slip scenario |
| dir_size.dfy | `DirSize` | `computeDirSize`, its recursive specification, `errorsIsCanceled`, the handler's status |

### Behaviour worth knowing

- **Unsupported archive name.** The handler checks and creates the
  destination before it looks at the archive's extension. An unsupported
  name is therefore refused only after `MkdirAll(destination)` has run
  (`Extract.HandleExtract`).
- **Destination above the base.** The destination comes from the query
  string and may climb above the user's base directory, as `/..` does. An
  afero `BasePathFs` whose base is not `/` refuses such a path at
  `MkdirAll`, before anything is created. With base `/`, or with any other
  filesystem (http/extract.go:121 accepts either), `/..` is the root and the
  archive is extracted there (`Safety.ParentDestination`, whose `guardsBase`
  says which kind of filesystem the user has).
- **Case folding.** The extension tests lower the name with
  `strings.ToLower`, which also maps U+0130 (capital I with dot above) to `i`
  and U+212A (Kelvin sign) to `k`. So `a.z\u0130p` goes to the zip extractor,
  and its base name is `a.`: the cut is four bytes of the original name, and
  the capital I takes two of them (`ArchiveNames.DottedCapitalIZip`).
- **The gate.** It is the three prefix and substring tests on the cleaned
  entry name. It is not a containment check against the cleaned destination.
  The bare name `..` passes it (`PathGate.AcceptedDotDotIsBare`). Lexical
  containment still holds in a tree without symbolic links, and is proved
  rather than assumed (`Safety.HandlerConfined`):
  - a `..` directory entry is `MkdirAll` of the destination's parent, which
    already exists;
  - a `..` file entry fails to open a directory for writing.
- **Zip symbolic links.** The zip loop writes symbolic-link entries as regular
  files holding the link text. Only the tar loop skips links.
- **Size walk status.** The size handler answers a cancelled walk
  (`context.Canceled` or `context.DeadlineExceeded`) with status 0, not with
  a mapped error status. A successful walk answers with whatever status
  `renderJSON` returns.

## Model

| member | source | states |
|---|---|---|
| ArchiveNames.IsArchiveFile | http/extract.go:349-357 | true exactly when the name, lowered as `strings.ToLower` lowers it, ends in one of the four supported extensions |
| ArchiveNames.BaseName | http/extract.go:101-115 | the result is always a prefix of the name |
| ArchiveNames.BaseNameStripsExtension | http/extract.go:101-115 | the name is returned unchanged exactly when it has no archive extension; otherwise the bytes cut off are as many as a supported extension that the lowered name ends in, and for an ASCII name they are, lower-cased, that extension |
| ArchiveNames.ExtensionsExclusive | http/extract.go:101-115 | a name whose lowered form ends in `.zip` ends in no other supported extension, and one ending in `.tar` ends in neither gzip spelling, so the switch's case order cannot pick a different extractor |
| ArchiveNames.MatchingIgnoresCase | http/extract.go:101-115 | a name and its lower-cased spelling dispatch alike and lose equally long extensions |
| ArchiveNames.Dispatch | http/extract.go:80-91 | the extractor the handler's switch picks; which names reach each one is stated by DispatchMatchesExtension |
| ArchiveNames.DispatchMatchesExtension | http/extract.go:80-91 | an extractor is chosen exactly for archive names; a lowered name ending in `.zip` goes to zip, in `.tar.gz`/`.tgz` to gzip+tar, in `.tar` to tar |
| ArchiveNames.DispatchAgreesWithBaseName | http/extract.go:80-91 | an extractor is chosen exactly when the base name differs from the name |
| ArchiveNames.DottedCapitalIZip | http/extract.go:101-115 | `a.z\u0130p` is a zip archive whose base name is `a.`, although its bytes with only the ASCII letters lowered do not end in `.zip` |
| Text.LastRuneLowered | http/extract.go:81 | the ASCII byte the string's last rune lowers to, if any, and the rune's width: an ASCII byte gives its lower case, U+0130 gives `i`, U+212A gives `k` |
| Text.HasFoldedSuffix | http/extract.go:81-88 | `strings.HasSuffix(strings.ToLower(s), suffix)` for an ASCII suffix, matched rune by rune from the end; FoldedSuffixOfAscii relates it to the plain suffix test |
| Text.FoldedSuffixOfAscii | http/extract.go:102 | on an ASCII name the lowered-suffix test is the suffix test on the name with its letters lowered |
| Text.FoldedSuffixIgnoresCase | http/extract.go:350 | lowering a name's ASCII letters first does not change the lowered-suffix test |
| Text.FoldedSuffixLength | http/extract.go:104-111 | a name passing the lowered-suffix test is at least as long as the extension, so getArchiveBaseName's cuts stay in range |
| Text.ToLower | http/extract.go:81 | same length; each ASCII capital lowered, every other byte kept |
| Text.SlashSeparators | http/extract.go:185 | same length; every backslash becomes a slash and every other byte is kept |
| ZipNames.DecodeZipFileName | http/extract.go:142-176 | identity when flag bit 11 is set or the name is ASCII; otherwise the name itself or a well-formed GBK decoding, and the decoding whenever it exists and is well-formed |
| ZipNames.FastPathIsAscii | http/extract.go:149-161 | "valid UTF-8 with no rune above 127" is the same as "every byte is ASCII" |
| ZipNames.DecodePreservesValidity | http/extract.go:142-176 | a well-formed name stays well-formed, and any changed name is well-formed |
| ZipNames.AsciiIsValidUtf8 | http/extract.go:149-161 | ASCII text passes the UTF-8 validity test |
| Paths.Step | http/extract.go:186 | one segment of Clean's scan keeps the output canonical: regular segments, with `..` only leading and only when relative |
| Paths.Fold | http/extract.go:186 | Clean's scan over all segments yields a canonical segment list |
| Paths.Clean | http/extract.go:186 | the result is never empty and is rooted exactly when the input is |
| Paths.CleanIdempotent | http/extract.go:186 | cleaning a cleaned path changes nothing |
| Paths.JoinPath | http/dirsize.go:82 | joining yields a non-empty path unless both parts are empty, and keeps a rooted first part rooted |
| Paths.Resolve | http/extract.go:194 | the segments below the filesystem root that a path designates, `..` clamped at the root; ResolveUnclampedUnlessEscaping says when the clamp matters |
| Paths.EscapesBase | http/extract.go:76 | the destinations that clean to above the base directory, refused at MkdirAll by a base-path filesystem whose base is not the root (apart from afero's prefix test; see Extract.HandleExtract under Left out) |
| Paths.ResolveUnclampedUnlessEscaping | http/extract.go:76 | clamping `..` at the root changes the resolved segments exactly for paths that escape the base |
| Paths.ResolveClean | http/extract.go:194 | a path and its cleaned form designate the same node |
| Paths.ResolveJoinPath | http/extract.go:194 | resolving `Join(a, b)` resolves `a` and then walks `b`'s segments from there |
| Paths.SplitJoin | http/extract.go:189 | splitting a joined list of slash-free segments gives the list back |
| Paths.JoinSplit | http/extract.go:189 | joining the split of a string gives the string back |
| PathGate.Rejects | http/extract.go:189 | a `../` prefix, a `/` prefix or a `/../` substring; GateVerdict states exactly which cleaned paths pass |
| PathGate.EntryPath | http/extract.go:185-186 | the checked path is never empty and is rooted exactly when the raw name starts with `/` or `\` |
| PathGate.GateVerdict | http/extract.go:189-191 | a cleaned path passes exactly when the raw path is relative and its kept segments hold no `..`, or are exactly `..` |
| PathGate.AcceptedShape | http/extract.go:185-191 | an accepted path is relative and is `.`, `..`, or all regular segments |
| PathGate.AcceptedDotDotIsBare | http/extract.go:290-296 | an accepted path with a `..` segment is exactly `..` |
| PathGate.RootedNamesRejected | http/extract.go:290-296 | every name rooted after backslash conversion is refused |
| PathGate.RegularNamesAccepted | http/extract.go:290-296 | a relative name of regular segments is checked unchanged and accepted |
| PathGate.RegularJoinAccepted | http/extract.go:189 | a relative path of regular segments passes all three tests |
| PathGate.CanonicalFixed | http/extract.go:186 | a path of regular segments is already clean |
| VirtualFs.MkdirAll | http/extract.go:196-203 | succeeds exactly when no ancestor is a file; on success it only adds directories towards the target and leaves the target and all its ancestors directories; keeps the tree well formed |
| VirtualFs.CreateFile | http/extract.go:212-224 | succeeds exactly when the target is not a directory and its parent is; the target then holds the data and nothing else changes |
| Extract.MakeDir | http/extract.go:196-198 | a directory entry only adds directories towards its target, fails exactly when an ancestor is a file, and changes nothing on failure |
| Extract.WriteRegular | http/extract.go:200-226 | a file entry succeeds exactly when the target is writable, the entry opens and its data reads fully; the target then holds exactly the payload; a failing copy leaves the bytes written so far |
| Extract.ZipStep | http/extract.go:179-227 | a refused name changes nothing and fails with InvalidPath; otherwise only the target and its ancestors change; directories get MkdirAll; every other entry, symlinks included, ends holding its payload on success |
| Extract.TarStep | http/extract.go:288-337 | the gate runs first for every typeflag; a skipped type (symlink, hard link, other) changes nothing and succeeds; directories get MkdirAll; regular files end holding their payload |
| Extract.ExtractTar | http/extract.go:279-286 | the header loop's filesystem is kept; the extraction succeeds exactly when every header succeeds and the reader ended with io.EOF |
| Extract.Run | http/extract.go:132-136 | the loop that stops at the first error, each entry applied to what the previous one left; RunAppend, RunFailsAtFirstError and RunReaches state it |
| Extract.ExtractZip | http/extract.go:132-138 | the zip loop over every record; ZipExtractionWritesPayloads and Safety.ZipExtractionConfined state what it does |
| Extract.TarEntries | http/extract.go:279-337 | the tar header loop; TarExtractionWritesPayloads and Safety.TarEntriesConfined state what it does |
| Extract.RunAppend | http/extract.go:132-136 | running a+b is running a, then b from a's filesystem, unless a failed |
| Extract.RunIgnoresEntriesAfterError | http/extract.go:132-136 | no entry after a failing one is processed |
| Extract.RunFailsAtFirstError | http/extract.go:132-136 | a failed run is one entry's failure on top of the filesystem that all earlier, successful entries left |
| Extract.RunReaches | http/extract.go:132-136 | in a successful run every entry is reached and succeeds, and the run continues from what it left |
| Extract.RunKeeps | http/extract.go:132-136 | a successful run keeps every node that no entry targets |
| Extract.RunLeaves | http/extract.go:132-136 | what an entry leaves at its target survives the run when no later entry targets the same node |
| Extract.TarExtractionWritesPayloads | http/extract.go:307-324 | after a successful tar extraction each regular entry's target holds exactly its payload, unless a later entry targets it |
| Extract.ZipExtractionWritesPayloads | http/extract.go:200-226 | after a successful zip extraction each non-directory entry's target holds exactly its payload, unless a later entry targets it |
| Extract.HandleExtract | http/extract.go:70-97 | a refused destination changes nothing and is Forbidden; on a base-path filesystem with a base other than the root, an accepted destination above the base changes nothing and fails; BadRequest comes exactly for a non-archive name after the destination was created; success implies an archive name; a failed MkdirAll changes nothing and reports its error; once the destination is created, the reply is the extension dispatch run on the tree MkdirAll produced |
| Extract.RunExtractor | http/extract.go:80-97 | BadRequest exactly for an unsupported name, with nothing changed; an archive that cannot be opened changes nothing and fails; otherwise the matching extractor runs, its tree is the reply's, and the status is success exactly when the extractor succeeded, its error otherwise |
| Safety.AcceptedTarget | http/extract.go:189-194 | an accepted entry targets the destination, its parent (name `..`), or a node strictly inside it |
| Safety.ZipStepConfined | http/extract.go:179-227 | one zip entry, successful or not, changes nothing outside the destination's subtree and keeps the destination a directory |
| Safety.TarStepConfined | http/extract.go:288-337 | the same for one tar header |
| Safety.RunConfined | http/extract.go:132-136 | if every step keeps `d` a directory of a well-formed tree and changes nothing outside `d`'s subtree, so does the whole loop, stopped by an error or not |
| Safety.ZipExtractionConfined | http/extract.go:132-136 | a whole zip extraction into an existing directory, successful or not, is confined to it |
| Safety.TarEntriesConfined | http/extract.go:279-337 | the tar header loop is confined to the destination |
| Safety.TarExtractionConfined | http/extract.go:273-341 | a whole tar extraction is confined to the destination |
| Safety.ExtractorsConfined | http/extract.go:80-91 | whatever the dispatch runs is confined to the existing destination |
| Safety.HandlerConfined | http/extract.go:70-97 | the request removes and changes nothing outside the destination's subtree and adds only nodes inside it or its own ancestors |
| Safety.ParentDestination | http/extract.go:70-78 | `/..`, accepted by the check, is refused before anything is created by a base-path filesystem whose base is not the root; on any other filesystem it resolves to the root, which already exists, and the archive is extracted into the unchanged tree |
| Safety.ResolveRootChild | http/extract.go:194 | `/d` resolves to the single segment `d` |
| Safety.PlainEntryLands | http/extract.go:185-194 | `a/b` is accepted unchanged and lands at `/d/a/b` |
| Safety.EscapingEntryRejected | http/extract.go:185-191 | `a/../../c` is refused |
| Safety.KeptEscape | http/extract.go:186 | `a/../../c` cleans to `../c` |
| Safety.UpAndBack | http/extract.go:186 | `a/..` cancels out |
| Safety.UpThenDown | http/extract.go:186 | a relative `../c` is already clean |
| Safety.RunSecondFails | http/extract.go:132-136 | with a succeeding first entry and a failing second one, the run is the second entry's failure |
| Safety.GoodEntryWritten | http/extract.go:179-227 | in an empty tree, `a/b` into `/d` succeeds, writes its data at `/d/a/b`, and creates nothing else |
| Safety.ZipSlipScenario | http/extract.go:132-136 | an archive holding `a/b` then `a/../../c` writes `/d/a/b`, stops with InvalidPath, and `c` appears nowhere |
| DirSize.RootPath | http/dirsize.go:54 | the walk's root is absolute |
| DirSize.RootPathCanonical | http/dirsize.go:54 | the walk's root is absolute and already clean |
| DirSize.Count | http/dirsize.go:87-97 | counting never lowers a counter and raises exactly one of files and dirs; a file adds its size, a directory adds none |
| DirSize.VisitEntry | http/dirsize.go:82-97 | an unauthorized child changes nothing; an authorized one is counted; exactly an authorized directory that is not a symbolic link is pushed, with its joined path and its subtree, and otherwise the stack is unchanged |
| DirSize.EntryTallies | http/dirsize.go:82-97 | what one entry moves into the counters and onto the stack is exactly that entry's tally in the recursive specification |
| DirSize.VisitAll | http/dirsize.go:77-98 | a listing visited to its end grows the stack by at most the listing's size |
| DirSize.ListingTallies | http/dirsize.go:77-98 | the counters plus the stack after a listing owe exactly what they owed before plus the listing's tally |
| DirSize.VisitListing | http/dirsize.go:77-98 | the inner loop polls the context once per entry; it stops on the first cancellation, and otherwise ends where VisitAll ends |
| DirSize.Drain | http/dirsize.go:64-99 | the outer loop terminates; on success the counters equal what was counted plus every stacked directory's tally; every error reports zeros; a read error means some stacked directory is unreadable; a cancellation reports the poll that returned it |
| DirSize.ComputeDirSize | http/dirsize.go:53-102 | permission is denied exactly for a non-`/` root failing the check; every error returns zeros; success returns the recursive tally of the tree; without cancellation it succeeds exactly when every directory to list is readable |
| DirSize.UncanceledMeans | http/dirsize.go:65-80 | the poll record says exactly that every earlier poll returned nil |
| DirSize.WalkCountsReached | http/dirsize.go:63-101 | the recursive tally counts the reached files, their total size and the reached directories, and is complete exactly when every directory to list is readable |
| DirSize.ReachedAuthorized | http/dirsize.go:82-85 | every reached entry's own path passed the check |
| DirSize.UnauthorizedIgnored | http/dirsize.go:77-98 | two trees that differ only in unauthorized entries, anything below them, and anything below authorized symbolic links have the same tally |
| DirSize.DirSizeIgnoresUnauthorized | http/dirsize.go:53-102 | for two such trees computeDirSize reports the same totals when both succeed, and the same totals and error when nothing cancels |
| DirSize.DirSizeIsReachedTotals | http/dirsize.go:63-101 | a successful computeDirSize reports the reached files' count and size and the reached directories' count; a read error means some directory to list is unreadable; without cancellation and with the root permitted, it succeeds exactly when every directory to list is readable |
| DirSize.ErrorsIsCanceled | http/dirsize.go:122-124 | `context.Canceled` or `context.DeadlineExceeded` |
| DirSize.DirSizeStatus | http/dirsize.go:34-50 | 400 for a non-directory; 0 for a cancelled walk; the mapped status for any other error; renderJSON's status after a successful walk |
| DirSize.StatusZeroCases | http/dirsize.go:34-50 | with an error mapping that never yields 0, a directory request gets 0 exactly when its walk was cancelled or renderJSON returned 0 |

## Left out

- Text.ToLower: lowers only ASCII `A`-`Z`; it is not Go's `strings.ToLower`. The extension tests use Text.HasFoldedSuffix, which also covers the non-ASCII runes that lower to ASCII.
- Text.HasFoldedSuffix: the Unicode case tables are not modelled. That U+0130 and U+212A are the only runes above 127 that Go lowers to an ASCII byte is read from those tables, not proved.
- Paths.Resolve: clamps `..` at the root. The base-path refusal is modelled only for the destination (Paths.EscapesBase). An accepted `..` entry under a destination that cleans to `.`, such as `.` or `a/..`, also climbs above the base. A base-path filesystem whose base is not `/` then fails with os.ErrNotExist; the model targets the root, as any other filesystem does.
- Safety.HandlerConfined: the tree holds no symbolic links (a node is a directory or a file), so the confinement it proves is lexical. A link already under the destination, such as `link -> /etc` with an archive entry `link/x`, would be followed by the program, which would write `/etc/x`.
- Extract.HandleExtract: afero's `BasePathFs` tests containment by string prefix, so with base `/srv` it would accept `/../srv2` and act outside the base. When `guardsBase` holds, the model refuses every destination that cleans to above the base.
- GBK decoding is an uninterpreted partial function (`gbk`). The model does not include the code page tables.
- Archive decoding is not modelled: `zip.OpenReader`, `gzip.NewReader`, `tar.Reader.Next` and header parsing. Entries arrive decoded; a reader that cannot be opened is a `None` view.
- Tar typeflag normalisation is done by Go's reader before the loop sees a header (`TypeRegA` becomes `TypeReg`), so it is not modelled.
- The `BasePathFs` real-path lookup (http/extract.go:119-123, 231-235, 256-260) is not modelled: the archive is an input.
- Copies are not modelled in 8 KiB chunks. A copy is "the target holds the payload", or the bytes written before a read error.
- File and directory modes are not modelled.
- Filesystem failures are limited to the tree-shape ones: a file in the way, a directory at the target, a missing parent. Disk-full, permission and I/O errors are not modelled.
- `files.NewFileInfo` and `Perm.Create` (http/extract.go:28-50, dirsize.go:21-32) are not modelled: the handler model starts at the destination check, after the archive was found to be a file.
- Destination selection (http/extract.go:52-68) is not modelled: `url.QueryUnescape`, `path.Base`/`path.Dir` and the `mode` parameter. The destination is an input.
- `errToStatus` and `renderJSON` are not part of this model: `DirSize.DirSizeStatus` takes the error mapping as a function and renderJSON's status as a number.
- `isSymlinkDir` (http/dirsize.go:104-120) is a flag on each directory entry, read as what `LstatIfPossible` reports. An `Lstat` failure or a filesystem without `Lstater` reads as "not a link".
- `afero.ReadDir` is a `readable` flag per directory. A listing is its entries in order.
- DirSize.Drain: the two loops are tail-recursive functions over a stack datatype; the `for` loops are not modelled as loops. The termination measure is the total size of the stacked subtrees.
- DirSize.Count: counters are unbounded naturals. The `int64` overflow of `size` on huge trees is not modelled.
- Concurrency is not modelled: requests are independent, and the context is an oracle indexed by poll number.

=== FILE: archive_names.dfy ===
/** File-name helpers of the extraction handler (http/extract.go): the list of
    supported archive extensions, the "is this an archive" test, the base name
    used for a "subdir" extraction, and the extension dispatch that picks an
    extractor. All matching is done on strings.ToLower of the name, which is
    the folded suffix test of the Text module. */
module ArchiveNames {
  import opened Text

  /** ".zip" */
  const Zip: Bytes := [0x2E, 0x7A, 0x69, 0x70]
  /** ".tar.gz" */
  const TarGz: Bytes := [0x2E, 0x74, 0x61, 0x72, 0x2E, 0x67, 0x7A]
  /** ".tgz" */
  const Tgz: Bytes := [0x2E, 0x74, 0x67, 0x7A]
  /** ".tar" */
  const Tar: Bytes := [0x2E, 0x74, 0x61, 0x72]

  /** getSupportedArchiveFormats */
  function SupportedFormats(): seq<Bytes> {
    [Zip, TarGz, Tgz, Tar]
  }

  /** The lower-cased name ends in one of the supported extensions. */
  predicate HasArchiveExtension(f: Bytes) {
    exists i :: 0 <= i < |SupportedFormats()| && HasFoldedSuffix(f, SupportedFormats()[i])
  }

  /** isArchiveFile: scans the supported extensions in order. */
  method IsArchiveFile(f: Bytes) returns (b: bool)
    ensures b <==> HasArchiveExtension(f)
  {
    var formats := SupportedFormats();
    var i := 0;
    while i < |formats|
      invariant 0 <= i <= |formats|
      invariant forall k :: 0 <= k < i ==> !HasFoldedSuffix(f, formats[k])
    {
      if HasFoldedSuffix(f, formats[i]) {
        return true;
      }
      i := i + 1;
    }
    return false;
  }

  /** getArchiveBaseName: drops a recognised archive extension, keeping the
      original spelling of what remains. The cut is a fixed number of bytes of
      the original name, whatever the runes that lowered to the extension. */
  function BaseName(f: Bytes): (r: Bytes)
    ensures |r| <= |f| && r == f[..|r|]
  {
    if HasFoldedSuffix(f, TarGz) then FoldedSuffixLength(f, TarGz); f[..|f| - 7]
    else if HasFoldedSuffix(f, Tgz) then FoldedSuffixLength(f, Tgz); f[..|f| - 4]
    else if HasFoldedSuffix(f, Tar) then FoldedSuffixLength(f, Tar); f[..|f| - 4]
    else if HasFoldedSuffix(f, Zip) then FoldedSuffixLength(f, Zip); f[..|f| - 4]
    else f
  }

  /** The extractor the handler's switch selects. */
  datatype Format = ZipFormat | TarGzFormat | TarFormat | Unsupported

  /** The extension dispatch of the extraction handler. */
  function Dispatch(archivePath: Bytes): Format {
    if HasFoldedSuffix(archivePath, Zip) then ZipFormat
    else if HasFoldedSuffix(archivePath, TarGz) || HasFoldedSuffix(archivePath, Tgz) then TarGzFormat
    else if HasFoldedSuffix(archivePath, Tar) then TarFormat
    else Unsupported
  }

  // ---------------------------------------------------------------------

  /** Lower-casing commutes with taking a suffix. */
  lemma LowerSuffix(f: Bytes, n: nat)
    requires n <= |f|
    ensures ToLower(f[n..]) == ToLower(f)[n..]
  {
  }

  /** The base name is the name minus exactly the extension that matched:
      the bytes removed are as many as a supported extension that the name
      ends in, and for an ASCII name they are, lower-cased, that extension;
      nothing is removed from a name without one. */
  lemma BaseNameStripsExtension(f: Bytes)
    ensures var r := BaseName(f);
      && (r == f <==> !HasArchiveExtension(f))
      && (r != f ==> exists i :: 0 <= i < |SupportedFormats()|
                       && HasFoldedSuffix(f, SupportedFormats()[i]) && |f| - |r| == |SupportedFormats()[i]|)
      && (r != f && (forall k :: 0 <= k < |f| ==> f[k] < 0x80) ==> ToLower(f[|r|..]) in SupportedFormats())
  {
    var r := BaseName(f);
    var formats := SupportedFormats();
    if HasArchiveExtension(f) {
      var j;
      if HasFoldedSuffix(f, TarGz) {
        j := 1;
        FoldedSuffixLength(f, TarGz);
      } else if HasFoldedSuffix(f, Tgz) {
        j := 2;
        FoldedSuffixLength(f, Tgz);
      } else if HasFoldedSuffix(f, Tar) {
        j := 3;
        FoldedSuffixLength(f, Tar);
      } else {
        j := 0;
        assert HasFoldedSuffix(f, formats[0]);
        FoldedSuffixLength(f, Zip);
      }
      assert HasFoldedSuffix(f, formats[j]) && |f| - |r| == |formats[j]|;
      if forall k :: 0 <= k < |f| ==> f[k] < 0x80 {
        FoldedSuffixOfAscii(f, formats[j]);
        LowerSuffix(f, |r|);
      }
    } else {
      assert !HasFoldedSuffix(f, formats[0]);
      assert !HasFoldedSuffix(f, formats[1]);
      assert !HasFoldedSuffix(f, formats[2]);
      assert !HasFoldedSuffix(f, formats[3]);
    }
  }

  /** No name ends in two different supported extensions, except that
      ".tar.gz" and ".tgz" both mean gzip-compressed tar: the last bytes
      already tell them apart. */
  lemma ExtensionsExclusive(f: Bytes)
    ensures HasFoldedSuffix(f, Zip) ==> !HasFoldedSuffix(f, TarGz) && !HasFoldedSuffix(f, Tgz) && !HasFoldedSuffix(f, Tar)
    ensures HasFoldedSuffix(f, Tar) ==> !HasFoldedSuffix(f, TarGz) && !HasFoldedSuffix(f, Tgz)
  {
  }

  /** An extractor is reached exactly for archive names, and each extension
      goes to its own extractor whatever the order of the switch's cases. */
  lemma DispatchMatchesExtension(f: Bytes)
    ensures Dispatch(f) != Unsupported <==> HasArchiveExtension(f)
    ensures Dispatch(f) == ZipFormat <==> HasFoldedSuffix(f, Zip)
    ensures Dispatch(f) == TarGzFormat <==> HasFoldedSuffix(f, TarGz) || HasFoldedSuffix(f, Tgz)
    ensures Dispatch(f) == TarFormat <==> HasFoldedSuffix(f, Tar)
  {
    ExtensionsExclusive(f);
    var formats := SupportedFormats();
    if HasArchiveExtension(f) {
      var i :| 0 <= i < 4 && HasFoldedSuffix(f, formats[i]);
    } else {
      assert !HasFoldedSuffix(f, formats[0]);
      assert !HasFoldedSuffix(f, formats[1]);
      assert !HasFoldedSuffix(f, formats[2]);
      assert !HasFoldedSuffix(f, formats[3]);
    }
  }

  /** The dispatch and the base name agree: an extractor runs exactly when
      the base name differs from the file name. */
  lemma DispatchAgreesWithBaseName(f: Bytes)
    ensures Dispatch(f) != Unsupported <==> BaseName(f) != f
  {
    DispatchMatchesExtension(f);
    BaseNameStripsExtension(f);
  }

  /** Matching ignores case: a name and its lower-cased spelling dispatch alike
      and lose the same number of bytes. */
  lemma MatchingIgnoresCase(f: Bytes)
    ensures Dispatch(ToLower(f)) == Dispatch(f)
    ensures |BaseName(ToLower(f))| == |BaseName(f)|
  {
    FoldedSuffixIgnoresCase(f, Zip);
    FoldedSuffixIgnoresCase(f, TarGz);
    FoldedSuffixIgnoresCase(f, Tgz);
    FoldedSuffixIgnoresCase(f, Tar);
    var l := ToLower(f);
    if HasFoldedSuffix(f, TarGz) {
      FoldedSuffixLength(f, TarGz);
    } else if HasFoldedSuffix(f, Tgz) {
      FoldedSuffixLength(f, Tgz);
    } else if HasFoldedSuffix(f, Tar) {
      FoldedSuffixLength(f, Tar);
    } else if HasFoldedSuffix(f, Zip) {
      FoldedSuffixLength(f, Zip);
    }
  }

  /** "a.z\u0130p": the capital dotted I lowers to 'i', so the name is a zip
      archive although its bytes, with only the ASCII letters lowered, do not
      end in ".zip"; the base name is "a.", the two bytes of the I having taken
      the place of one byte of the extension. */
  lemma DottedCapitalIZip()
    ensures var f: Bytes := [0x61, 0x2E, 0x7A, 0xC4, 0xB0, 0x70];
      && Dispatch(f) == ZipFormat && HasArchiveExtension(f)
      && !HasSuffix(ToLower(f), Zip) && BaseName(f) == [0x61, 0x2E]
  {
    var f: Bytes := [0x61, 0x2E, 0x7A, 0xC4, 0xB0, 0x70];
    DottedCapitalIEndsInZip(f);
    assert HasFoldedSuffix(f, SupportedFormats()[0]);
    assert f[5] == 0x70 && LowerByte(0x70) == 0x70;
    assert !HasFoldedSuffix(f, TarGz);
    assert !HasFoldedSuffix(f, Tgz);
    assert !HasFoldedSuffix(f, Tar);
    assert ToLower(f)[2..] == [0x7A, 0xC4, 0xB0, 0x70];
  }

  /** The folded match of ".zip" on "a.z\u0130p", rune by rune from the end. */
  lemma DottedCapitalIEndsInZip(f: Bytes)
    requires f == [0x61, 0x2E, 0x7A, 0xC4, 0xB0, 0x70]
    ensures HasFoldedSuffix(f, Zip)
  {
    var a, b, c: Bytes := [0x61, 0x2E], [0x61, 0x2E, 0x7A], [0x61, 0x2E, 0x7A, 0xC4, 0xB0];
    assert LastRuneLowered(a) == Some(LoweredRune(0x2E, 1)) && a[..1] == [0x61];
    assert HasFoldedSuffix(a, [0x2E]);
    assert LastRuneLowered(b) == Some(LoweredRune(0x7A, 1)) && b[..2] == a;
    assert [0x2E, 0x7A][..1] == [0x2E];
    assert HasFoldedSuffix(b, [0x2E, 0x7A]);
    assert LastRuneLowered(c) == Some(LoweredRune(0x69, 2)) && c[..3] == b;
    assert [0x2E, 0x7A, 0x69][..2] == [0x2E, 0x7A];
    assert HasFoldedSuffix(c, [0x2E, 0x7A, 0x69]);
    assert LastRuneLowered(f) == Some(LoweredRune(0x70, 1)) && f[..5] == c;
    assert Zip[..3] == [0x2E, 0x7A, 0x69];
  }
}

=== FILE: dir_size.dfy ===
/** The directory-size aggregator of http/dirsize.go.

    computeDirSize walks a directory tree depth-first with an explicit stack.
    Every entry whose joined path passes the authorization check is counted:
    directories in `numDirs`, everything else in `numFiles` and `size`.
    Directories are pushed for a later visit unless Lstat reports them as
    symbolic links. Any error returns three zeros.

    The tree is given as data: a directory listing that could not be read is
    an unreadable node, and each directory entry carries the answer
    isSymlinkDir gives for it. `ctx` is the cancellation oracle: `ctx(k)` is
    what ctx.Err() returns at its k-th call. */
module DirSize {
  import opened Text
  import opened Paths

  datatype Kind =
    | RegularFile(size: nat)
    | SubDir(isSymlink: bool, sub: Tree)

  datatype Entry = Entry(name: Bytes, kind: Kind)

  /** A directory: whether afero.ReadDir succeeds on it, and its listing. */
  datatype Tree = Tree(readable: bool, entries: seq<Entry>)

  datatype Stats = Stats(size: nat, files: nat, dirs: nat)

  const Zero := Stats(0, 0, 0)

  /** The two errors ctx.Err() can return. */
  datatype CtxErr = Canceled | DeadlineExceeded

  datatype SizeError = PermissionDenied | ReadFailed | Ctx(cause: CtxErr)

  function Add(a: Stats, b: Stats): Stats {
    Stats(a.size + b.size, a.files + b.files, a.dirs + b.dirs)
  }

  /** The outcome of part of the walk: whether every directory it had to
      list could be listed, and what it counted. A walk that stops at an
      unreadable directory yields no totals at all, so only the totals of a
      complete tally are ever reported. */
  datatype Tally = Tally(complete: bool, stats: Stats)

  /** An unreadable directory: the walk stops there. */
  const Failed := Tally(false, Zero)

  function Counted(s: Stats): Tally {
    Tally(true, s)
  }

  /** The tally of two parts of the walk. */
  function Combine(a: Tally, b: Tally): Tally {
    Tally(a.complete && b.complete, Add(a.stats, b.stats))
  }

  // ---------------------------------------------------------------------
  // The recursive specification

  /** The tally below directory `t` at `path`; incomplete when a directory
      the walk must read is unreadable. The directory itself is not counted. */
  function Walk(path: Bytes, t: Tree, check: Bytes -> bool): Tally
    decreases t
  {
    if !t.readable then Failed else WalkEntries(path, t.entries, check)
  }

  function WalkEntries(path: Bytes, es: seq<Entry>, check: Bytes -> bool): Tally
    decreases es
  {
    if es == [] then Counted(Zero)
    else Combine(WalkEntry(path, es[0], check), WalkEntries(path, es[1..], check))
  }

  /** One entry: skipped when unauthorized, one file of its size, or one
      directory plus, unless it is a symbolic link, everything below it. */
  function WalkEntry(path: Bytes, e: Entry, check: Bytes -> bool): Tally
    decreases e
  {
    var child := JoinPath(path, e.name);
    if !check(child) then Counted(Zero)
    else match e.kind
      case RegularFile(s) => Counted(Stats(s, 1, 0))
      case SubDir(isSymlink, sub) =>
        if isSymlink then Counted(Stats(0, 0, 1))
        else Combine(Counted(Stats(0, 0, 1)), Walk(child, sub, check))
  }

  // ---------------------------------------------------------------------
  // The iterative walk

  /** The root the walk starts from. */
  function RootPath(root: Bytes): (r: Bytes)
    ensures IsRooted(r)
  {
    Clean(JoinPath(Root, root))
  }

  /** A directory waiting on the stack. */
  datatype Pending = Pending(path: Bytes, tree: Tree)

  /** The stack of directories still to list. computeDirSize keeps it in a
      slice and pushes and pops at the slice's end; here that end is `top`. */
  datatype Stack = Bottom | Push(below: Stack, top: Pending)

  /** The totals still owed by the directories on the stack. */
  function SumStack(stack: Stack, check: Bytes -> bool): Tally
    decreases stack
  {
    match stack
    case Bottom => Counted(Zero)
    case Push(below, top) => Combine(SumStack(below, check), Walk(top.path, top.tree, check))
  }

  function TreeSize(t: Tree): nat
    decreases t
  {
    1 + EntriesSize(t.entries)
  }

  function EntriesSize(es: seq<Entry>): nat
    decreases es
  {
    if es == [] then 0 else EntrySize(es[0]) + EntriesSize(es[1..])
  }

  function EntrySize(e: Entry): nat
    decreases e
  {
    match e.kind
    case RegularFile(_) => 1
    case SubDir(_, sub) => 1 + TreeSize(sub)
  }

  /** The termination measure: the nodes of all subtrees on the stack. */
  function StackSize(stack: Stack): nat
    decreases stack
  {
    match stack
    case Bottom => 0
    case Push(below, top) => StackSize(below) + TreeSize(top.tree)
  }

  /** What counting one authorized entry adds: every entry raises exactly one
      of the two counters by one, and only a file adds to the size. */
  function Count(acc: Stats, k: Kind): (r: Stats)
    ensures r.size >= acc.size && r.files >= acc.files && r.dirs >= acc.dirs
    ensures r.files + r.dirs == acc.files + acc.dirs + 1
    ensures r.files == acc.files + 1 <==> k.RegularFile?
    ensures k.RegularFile? ==> r.size == acc.size + k.size
    ensures k.SubDir? ==> r.size == acc.size
  {
    match k
    case RegularFile(s) => Stats(acc.size + s, acc.files + 1, acc.dirs)
    case SubDir(_, _) => Stats(acc.size, acc.files, acc.dirs + 1)
  }

  /** The walk never receives a cancellation. */
  ghost predicate Quiet(ctx: nat -> Option<CtxErr>) {
    forall k :: ctx(k).None?
  }

  /** The first `n` polls of the context all returned nil. */
  predicate Uncanceled(ctx: nat -> Option<CtxErr>, n: nat)
    decreases n
  {
    n == 0 || (ctx(n - 1).None? && Uncanceled(ctx, n - 1))
  }

  lemma {:induction false} UncanceledMeans(ctx: nat -> Option<CtxErr>, n: nat)
    ensures Uncanceled(ctx, n) <==> forall j :: 0 <= j < n ==> ctx(j).None?
    decreases n
  {
    if n > 0 {
      UncanceledMeans(ctx, n - 1);
    }
  }

  /** The root may be walked: it is "/" or passes the check. */
  predicate Permitted(root: Bytes, check: Bytes -> bool) {
    RootPath(root) == Root || check(RootPath(root))
  }

  /** What computeDirSize returns, and how many times it polled the
      context. */
  datatype Report = Report(stats: Stats, err: Option<SizeError>, polls: nat)

  /** computeDirSize: clean the root, check it, and run the walk loop from a
      stack holding only the root. */
  function ComputeDirSize(root: Bytes, tree: Tree, check: Bytes -> bool, ctx: nat -> Option<CtxErr>): (r: Report)
    ensures r.err.Some? ==> r.stats == Zero
    ensures r.err == Some(PermissionDenied) <==> !Permitted(root, check)
    ensures r.err.None? ==> Walk(RootPath(root), tree, check) == Counted(r.stats)
    ensures r.err == Some(ReadFailed) ==> !Walk(RootPath(root), tree, check).complete
    ensures Uncanceled(ctx, r.polls)
    ensures r.err.Some? && r.err.value.Ctx? ==> ctx(r.polls) == Some(r.err.value.cause)
    ensures Quiet(ctx) && Permitted(root, check) ==>
              (r.err.None? <==> Walk(RootPath(root), tree, check).complete)
  {
    var top := RootPath(root);
    if top != Root && !check(top) then Report(Zero, Some(PermissionDenied), 0)
    else
      var stack := Push(Bottom, Pending(top, tree));
      var whole := Walk(top, tree, check);
      assert SumStack(stack, check) == Combine(Counted(Zero), whole);
      NothingCounted(whole);
      NothingCounted(Combine(Counted(Zero), whole));
      Drain(Zero, stack, 0, check, ctx)
  }

  /** The walk loop from a given state: poll the context, pop the top
      directory, list it and visit its entries, until the stack is empty or
      an error stops the walk. `acc` is what has been counted so far. */
  function Drain(acc: Stats, stack: Stack, polls: nat,
                 check: Bytes -> bool, ctx: nat -> Option<CtxErr>): (r: Report)
    requires Uncanceled(ctx, polls)
    ensures r.polls >= polls && Uncanceled(ctx, r.polls)
    ensures r.err.Some? ==> r.stats == Zero && r.err != Some(PermissionDenied)
    ensures r.err.None? ==> Counted(r.stats) == Combine(Counted(acc), SumStack(stack, check))
    ensures r.err == Some(ReadFailed) ==> !SumStack(stack, check).complete
    ensures r.err.Some? && r.err.value.Ctx? ==> ctx(r.polls) == Some(r.err.value.cause)
    ensures Quiet(ctx) ==> r.err.None? || r.err == Some(ReadFailed)
    decreases StackSize(stack)
  {
    match stack
    case Bottom => Report(acc, None, polls)
    case Push(rest, dir) =>
      match ctx(polls)
      case Some(c) => Report(Zero, Some(Ctx(c)), polls)
      case None =>
        if !dir.tree.readable then Report(Zero, Some(ReadFailed), polls + 1)
        else
          var v := VisitListing(dir.path, dir.tree.entries, acc, rest, polls + 1, check, ctx);
          if v.stop.Some? then Report(Zero, Some(Ctx(v.stop.value)), v.polls)
          else
            ListingTallies(dir.path, dir.tree.entries, acc, rest, check);
            Rotate(Counted(acc), SumStack(rest, check), Walk(dir.path, dir.tree, check));
            Drain(v.acc, v.stack, v.polls, check, ctx)
  }

  /** The state after the inner loop over a listing: what has been counted,
      the stack, the polls made, and the context's error if a poll returned
      one (that poll is number `polls`). */
  datatype Visit = Visit(acc: Stats, stack: Stack, polls: nat, stop: Option<CtxErr>)

  /** The inner loop over the entries `todo` still to visit in one listing:
      poll the context before each entry and visit it. Uncanceled, it visits
      every entry, polling once per entry. */
  function VisitListing(path: Bytes, todo: seq<Entry>, acc: Stats, stack: Stack, polls: nat,
                        check: Bytes -> bool, ctx: nat -> Option<CtxErr>): (r: Visit)
    requires Uncanceled(ctx, polls)
    ensures r.polls >= polls && Uncanceled(ctx, r.polls)
    ensures r.stop.Some? ==> ctx(r.polls) == r.stop && r.polls < polls + |todo|
    ensures r.stop.None? ==>
              r.polls == polls + |todo| && Progress(r.acc, r.stack) == VisitAll(path, todo, acc, stack, check)
    decreases |todo|
  {
    if todo == [] then Visit(acc, stack, polls, None)
    else if ctx(polls).Some? then Visit(acc, stack, polls, ctx(polls))
    else
      var next := VisitEntry(path, todo[0], acc, stack, check);
      VisitListing(path, todo[1..], next.acc, next.stack, polls + 1, check, ctx)
  }

  /** The inner loop run to the end of the listing: every entry visited in
      order. */
  function VisitAll(path: Bytes, todo: seq<Entry>, acc: Stats, stack: Stack, check: Bytes -> bool)
    : (r: Progress)
    ensures StackSize(r.stack) <= StackSize(stack) + EntriesSize(todo)
    decreases |todo|
  {
    if todo == [] then Progress(acc, stack)
    else
      var next := VisitEntry(path, todo[0], acc, stack, check);
      VisitAll(path, todo[1..], next.acc, next.stack, check)
  }

  /** A listing visited to its end leaves, in the counts and on the stack
      together, exactly what the stack owed before plus the listing's own
      tally. */
  lemma {:induction false} ListingTallies(path: Bytes, todo: seq<Entry>, acc: Stats, stack: Stack,
                                          check: Bytes -> bool)
    ensures var r := VisitAll(path, todo, acc, stack, check);
            Combine(Counted(r.acc), SumStack(r.stack, check))
            == Combine(Counted(acc), Combine(WalkEntries(path, todo, check), SumStack(stack, check)))
    decreases |todo|
  {
    if todo == [] {
      NothingCounted(SumStack(stack, check));
    } else {
      var next := VisitEntry(path, todo[0], acc, stack, check);
      EntryTallies(path, todo[0], acc, stack, check);
      ListingTallies(path, todo[1..], next.acc, next.stack, check);
      Regroup(Counted(acc), WalkEntry(path, todo[0], check), WalkEntries(path, todo[1..], check),
              SumStack(stack, check), Counted(next.acc), SumStack(next.stack, check));
    }
  }

  /** The counts and the stack after one entry. */
  datatype Progress = Progress(acc: Stats, stack: Stack)

  /** One entry of a listing: skip it when unauthorized, count it, and push
      it when it is a directory that is not a symbolic link. */
  function VisitEntry(path: Bytes, e: Entry, acc: Stats, stack: Stack, check: Bytes -> bool)
    : (r: Progress)
    ensures StackSize(r.stack) < StackSize(stack) + EntrySize(e)
    ensures check(JoinPath(path, e.name)) ==> r.acc == Count(acc, e.kind)
    ensures !check(JoinPath(path, e.name)) ==> r == Progress(acc, stack)
    ensures (check(JoinPath(path, e.name)) && e.kind.SubDir? && !e.kind.isSymlink)
            ==> r.stack == Push(stack, Pending(JoinPath(path, e.name), e.kind.sub))
    ensures !(check(JoinPath(path, e.name)) && e.kind.SubDir? && !e.kind.isSymlink) ==> r.stack == stack
  {
    var child := JoinPath(path, e.name);
    if !check(child) then Progress(acc, stack)
    else if e.kind.RegularFile? || e.kind.isSymlink then Progress(Count(acc, e.kind), stack)
    else Progress(Count(acc, e.kind), Push(stack, Pending(child, e.kind.sub)))
  }

  /** Visiting an entry moves its tally into the counts and onto the stack:
      nothing is lost and nothing is counted twice. */
  lemma {:induction false} EntryTallies(path: Bytes, e: Entry, acc: Stats, stack: Stack, check: Bytes -> bool)
    ensures var r := VisitEntry(path, e, acc, stack, check);
            Combine(Counted(r.acc), SumStack(r.stack, check))
            == Combine(Counted(acc), Combine(WalkEntry(path, e, check), SumStack(stack, check)))
  {
    var child := JoinPath(path, e.name);
    var owed := SumStack(stack, check);
    if !check(child) {
      assert VisitEntry(path, e, acc, stack, check) == Progress(acc, stack);
      assert WalkEntry(path, e, check) == Counted(Zero);
      NothingCounted(owed);
    } else if e.kind.RegularFile? || e.kind.isSymlink {
      assert VisitEntry(path, e, acc, stack, check) == Progress(Count(acc, e.kind), stack);
      assert WalkEntry(path, e, check) == Counted(Count(Zero, e.kind));
      CountOne(acc, e.kind, owed);
    } else {
      var pushed := Pending(child, e.kind.sub);
      var below := Walk(child, e.kind.sub, check);
      assert VisitEntry(path, e, acc, stack, check)
          == Progress(Stats(acc.size, acc.files, acc.dirs + 1), Push(stack, pushed));
      assert WalkEntry(path, e, check) == Combine(Counted(Stats(0, 0, 1)), below);
      assert SumStack(Push(stack, pushed), check) == Combine(owed, below);
      CountDir(acc, owed, below);
    }
  }

  /** Counting a file or a symbolic link moves one entry's tally into `acc`. */
  lemma CountOne(acc: Stats, k: Kind, s: Tally)
    requires k.RegularFile? || k.isSymlink
    ensures Combine(Counted(Count(acc, k)), s)
         == Combine(Counted(acc), Combine(Counted(Count(Zero, k)), s))
  {
  }

  /** Counting a directory and pushing it moves the directory into `acc` and
      its subtree onto the stack. */
  lemma CountDir(acc: Stats, s: Tally, w: Tally)
    ensures Combine(Counted(Stats(acc.size, acc.files, acc.dirs + 1)), Combine(s, w))
         == Combine(Counted(acc), Combine(Combine(Counted(Stats(0, 0, 1)), w), s))
  {
  }

  /** A complete tally of nothing is the unit of Combine. */
  lemma NothingCounted(t: Tally)
    ensures Combine(Counted(Zero), t) == t
  {
    assert Add(Zero, t.stats) == t.stats;
  }

  /** Combine is associative and commutative. */
  lemma Rotate(a: Tally, s: Tally, w: Tally)
    ensures Combine(a, Combine(s, w)) == Combine(a, Combine(w, s))
  {
  }

  lemma Regroup(a: Tally, x: Tally, w: Tally, s: Tally, a2: Tally, s2: Tally)
    requires Combine(a2, s2) == Combine(a, Combine(x, s))
    ensures Combine(a2, Combine(w, s2)) == Combine(a, Combine(Combine(x, w), s))
  {
  }

  // ---------------------------------------------------------------------
  // A reference definition: the entries the walk reaches

  /** A reached entry with the path it was checked under. */
  datatype Item = Item(path: Bytes, kind: Kind)

  /** Every authorized entry reachable from `t` through authorized, readable
      directories that are not symbolic links, in listing order. */
  function Reached(path: Bytes, t: Tree, check: Bytes -> bool): seq<Item>
    decreases t
  {
    if !t.readable then [] else ReachedEntries(path, t.entries, check)
  }

  function ReachedEntries(path: Bytes, es: seq<Entry>, check: Bytes -> bool): seq<Item>
    decreases es
  {
    if es == [] then [] else ReachedEntry(path, es[0], check) + ReachedEntries(path, es[1..], check)
  }

  function ReachedEntry(path: Bytes, e: Entry, check: Bytes -> bool): seq<Item>
    decreases e
  {
    var child := JoinPath(path, e.name);
    if !check(child) then []
    else match e.kind
      case RegularFile(_) => [Item(child, e.kind)]
      case SubDir(isSymlink, sub) =>
        [Item(child, e.kind)] + (if isSymlink then [] else Reached(child, sub, check))
  }

  /** Every directory the walk has to list can be listed. */
  predicate Readable(path: Bytes, t: Tree, check: Bytes -> bool)
    decreases t
  {
    t.readable && EntriesReadable(path, t.entries, check)
  }

  predicate EntriesReadable(path: Bytes, es: seq<Entry>, check: Bytes -> bool)
    decreases es
  {
    es == [] || (EntryReadable(path, es[0], check) && EntriesReadable(path, es[1..], check))
  }

  predicate EntryReadable(path: Bytes, e: Entry, check: Bytes -> bool)
    decreases e
  {
    var child := JoinPath(path, e.name);
    !check(child) || match e.kind
      case RegularFile(_) => true
      case SubDir(isSymlink, sub) => isSymlink || Readable(child, sub, check)
  }

  function FileCount(items: seq<Item>): nat {
    if items == [] then 0 else (if items[0].kind.RegularFile? then 1 else 0) + FileCount(items[1..])
  }

  function DirCount(items: seq<Item>): nat {
    if items == [] then 0 else (if items[0].kind.SubDir? then 1 else 0) + DirCount(items[1..])
  }

  function TotalSize(items: seq<Item>): nat {
    if items == [] then 0 else (if items[0].kind.RegularFile? then items[0].kind.size else 0) + TotalSize(items[1..])
  }

  function Totals(items: seq<Item>): Stats {
    Stats(TotalSize(items), FileCount(items), DirCount(items))
  }

  lemma {:induction false} TotalsAppend(a: seq<Item>, b: seq<Item>)
    ensures Totals(a + b) == Add(Totals(a), Totals(b))
    decreases |a|
  {
    if a == [] {
      assert a + b == b;
    } else {
      assert (a + b)[0] == a[0];
      assert (a + b)[1..] == a[1..] + b;
      TotalsAppend(a[1..], b);
    }
  }

  /** The walk counts the reached files, their total size and the reached
      directories, and it is complete exactly when every directory it must
      list is readable. */
  lemma {:induction false} WalkCountsReached(path: Bytes, t: Tree, check: Bytes -> bool)
    ensures Walk(path, t, check) == Tally(Readable(path, t, check), Totals(Reached(path, t, check)))
    decreases t
  {
    if t.readable {
      EntriesCountReached(path, t.entries, check);
    }
  }

  lemma {:induction false} EntriesCountReached(path: Bytes, es: seq<Entry>, check: Bytes -> bool)
    ensures WalkEntries(path, es, check)
         == Tally(EntriesReadable(path, es, check), Totals(ReachedEntries(path, es, check)))
    decreases es
  {
    if es != [] {
      EntryCountsReached(path, es[0], check);
      EntriesCountReached(path, es[1..], check);
      TotalsAppend(ReachedEntry(path, es[0], check), ReachedEntries(path, es[1..], check));
    }
  }

  lemma {:induction false} EntryCountsReached(path: Bytes, e: Entry, check: Bytes -> bool)
    ensures WalkEntry(path, e, check)
         == Tally(EntryReadable(path, e, check), Totals(ReachedEntry(path, e, check)))
    decreases e
  {
    var child := JoinPath(path, e.name);
    if check(child) {
      var head := [Item(child, e.kind)];
      assert head[1..] == [];
      match e.kind
      case RegularFile(sz) =>
        assert ReachedEntry(path, e, check) == head;
        assert FileCount(head) == 1 && DirCount(head) == 0 && TotalSize(head) == sz;
      case SubDir(isSymlink, sub) =>
        if isSymlink {
          assert ReachedEntry(path, e, check) == head + [];
          assert head + [] == head;
          assert FileCount(head) == 0 && DirCount(head) == 1 && TotalSize(head) == 0;
        } else {
          WalkCountsReached(child, sub, check);
          TotalsAppend(head, Reached(child, sub, check));
        }
    }
  }

  /** Only authorized entries are reached. */
  lemma {:induction false} ReachedAuthorized(path: Bytes, t: Tree, check: Bytes -> bool)
    ensures forall it :: it in Reached(path, t, check) ==> check(it.path)
    decreases t
  {
    EntriesReachedAuthorized(path, t.entries, check);
  }

  lemma {:induction false} EntriesReachedAuthorized(path: Bytes, es: seq<Entry>, check: Bytes -> bool)
    ensures forall it :: it in ReachedEntries(path, es, check) ==> check(it.path)
    decreases es
  {
    if es != [] {
      EntryReachedAuthorized(path, es[0], check);
      EntriesReachedAuthorized(path, es[1..], check);
    }
  }

  lemma {:induction false} EntryReachedAuthorized(path: Bytes, e: Entry, check: Bytes -> bool)
    ensures forall it :: it in ReachedEntry(path, e, check) ==> check(it.path)
    decreases e
  {
    var child := JoinPath(path, e.name);
    if check(child) {
      match e.kind
      case RegularFile(_) =>
      case SubDir(isSymlink, sub) =>
        if !isSymlink {
          ReachedAuthorized(child, sub, check);
        }
    }
  }

  /** Two trees the walk cannot tell apart from `path` down: the same
      readability and the same entry names, and for every entry whose path
      passes the check the same kind, with, below a directory that is not a
      symbolic link, two subtrees the walk cannot tell apart either. What an
      unauthorized entry is, and what lies below it, may differ freely. */
  predicate SameForWalk(path: Bytes, t1: Tree, t2: Tree, check: Bytes -> bool)
    decreases t1
  {
    t1.readable == t2.readable && (!t1.readable || SameEntriesForWalk(path, t1.entries, t2.entries, check))
  }

  predicate SameEntriesForWalk(path: Bytes, es1: seq<Entry>, es2: seq<Entry>, check: Bytes -> bool)
    decreases es1
  {
    |es1| == |es2|
    && (es1 == [] || (SameEntryForWalk(path, es1[0], es2[0], check)
                      && SameEntriesForWalk(path, es1[1..], es2[1..], check)))
  }

  predicate SameEntryForWalk(path: Bytes, e1: Entry, e2: Entry, check: Bytes -> bool)
    decreases e1
  {
    var child := JoinPath(path, e1.name);
    e1.name == e2.name
    && (!check(child) || match e1.kind
          case RegularFile(s) => e2.kind == RegularFile(s)
          case SubDir(isSymlink, sub) =>
            && e2.kind.SubDir? && e2.kind.isSymlink == isSymlink
            && (isSymlink || SameForWalk(child, sub, e2.kind.sub, check)))
  }

  /** Whatever lies at or below an entry whose path fails the check never
      reaches the totals, and nothing below an authorized symbolic link does:
      trees that differ only there walk alike. */
  lemma {:induction false} UnauthorizedIgnored(path: Bytes, t1: Tree, t2: Tree, check: Bytes -> bool)
    requires SameForWalk(path, t1, t2, check)
    ensures Walk(path, t1, check) == Walk(path, t2, check)
    decreases t1
  {
    if t1.readable {
      EntriesUnauthorizedIgnored(path, t1.entries, t2.entries, check);
    }
  }

  lemma {:induction false} EntriesUnauthorizedIgnored(path: Bytes, es1: seq<Entry>, es2: seq<Entry>,
                                                      check: Bytes -> bool)
    requires SameEntriesForWalk(path, es1, es2, check)
    ensures WalkEntries(path, es1, check) == WalkEntries(path, es2, check)
    decreases es1
  {
    if es1 != [] {
      EntryUnauthorizedIgnored(path, es1[0], es2[0], check);
      EntriesUnauthorizedIgnored(path, es1[1..], es2[1..], check);
    }
  }

  lemma {:induction false} EntryUnauthorizedIgnored(path: Bytes, e1: Entry, e2: Entry, check: Bytes -> bool)
    requires SameEntryForWalk(path, e1, e2, check)
    ensures WalkEntry(path, e1, check) == WalkEntry(path, e2, check)
    decreases e1
  {
    var child := JoinPath(path, e1.name);
    if check(child) {
      match e1.kind
      case RegularFile(_) =>
      case SubDir(isSymlink, sub) =>
        if !isSymlink {
          UnauthorizedIgnored(child, sub, e2.kind.sub, check);
        }
    }
  }

  /** computeDirSize on two trees that differ only in unauthorized entries
      and what lies below them: without cancellation it returns the same
      totals and the same error, and whenever both walks succeed they report
      the same totals. */
  lemma DirSizeIgnoresUnauthorized(root: Bytes, t1: Tree, t2: Tree, check: Bytes -> bool,
                                   ctx: nat -> Option<CtxErr>)
    requires SameForWalk(RootPath(root), t1, t2, check)
    ensures var r1, r2 := ComputeDirSize(root, t1, check, ctx), ComputeDirSize(root, t2, check, ctx);
      && (r1.err.None? && r2.err.None? ==> r1.stats == r2.stats)
      && (Quiet(ctx) ==> r1.stats == r2.stats && r1.err == r2.err)
  {
    UnauthorizedIgnored(RootPath(root), t1, t2, check);
    var r1, r2 := ComputeDirSize(root, t1, check, ctx), ComputeDirSize(root, t2, check, ctx);
    if Quiet(ctx) {
      assert ctx(r1.polls).None? && ctx(r2.polls).None?;
    }
  }

  /** The iterative walk reports exactly the reached files' count and total
      size and the reached directories' count when it succeeds, and fails
      with a read error only when some directory to list is unreadable;
      without cancellation and with the root permitted, it succeeds exactly
      when every directory to list is readable. */
  lemma DirSizeIsReachedTotals(root: Bytes, tree: Tree, check: Bytes -> bool, ctx: nat -> Option<CtxErr>)
    ensures var r, top := ComputeDirSize(root, tree, check, ctx), RootPath(root);
      && (r.err.None? ==> Readable(top, tree, check)
                          && r.stats.files == FileCount(Reached(top, tree, check))
                          && r.stats.size == TotalSize(Reached(top, tree, check))
                          && r.stats.dirs == DirCount(Reached(top, tree, check)))
      && (r.err == Some(ReadFailed) ==> !Readable(top, tree, check))
      && (Quiet(ctx) && Permitted(root, check) ==> (r.err.None? <==> Readable(top, tree, check)))
  {
    WalkCountsReached(RootPath(root), tree, check);
  }

  /** The walk starts from an absolute, already cleaned path. */
  lemma RootPathCanonical(root: Bytes)
    ensures IsRooted(RootPath(root))
    ensures Clean(RootPath(root)) == RootPath(root)
  {
    CleanIdempotent(JoinPath(Root, root));
  }

  // ---------------------------------------------------------------------
  // The handler's status

  /** errorsIsCanceled */
  predicate ErrorsIsCanceled(e: SizeError) {
    e == Ctx(Canceled) || e == Ctx(DeadlineExceeded)
  }

  /** errorsIsCanceled recognises exactly the errors that come from the
      context, the only two ctx.Err() can return. */
  lemma CanceledMeansContext(e: SizeError)
    ensures ErrorsIsCanceled(e) <==> e.Ctx?
  {
    if e.Ctx? {
      match e.cause
      case Canceled =>
      case DeadlineExceeded =>
    }
  }

  /** dirSizeHandler after the file lookup: 400 for a non-directory, 0 for a
      cancelled walk, the mapped status for any other error, and otherwise
      the status renderJSON returns for the written response, `rendered`.
      `errToStatus` is the server's error-to-status mapping. */
  function DirSizeStatus(isDir: bool, err: Option<SizeError>, errToStatus: SizeError -> nat, rendered: nat)
    : (r: nat)
    ensures !isDir ==> r == 400
    ensures isDir && err.Some? && err.value.Ctx? ==> r == 0
    ensures isDir && err.Some? && !err.value.Ctx? ==> r == errToStatus(err.value)
    ensures isDir && err.None? ==> r == rendered
  {
    if !isDir then 400
    else if err.Some? then
      CanceledMeansContext(err.value);
      if ErrorsIsCanceled(err.value) then 0 else errToStatus(err.value)
    else rendered
  }

  /** Status 0 comes back for a directory exactly when its walk was
      cancelled or the response was rendered with status 0, as long as the
      error mapping itself never yields 0. */
  lemma StatusZeroCases(isDir: bool, err: Option<SizeError>, errToStatus: SizeError -> nat, rendered: nat)
    requires forall e :: errToStatus(e) != 0
    ensures DirSizeStatus(isDir, err, errToStatus, rendered) == 0
            <==> isDir && ((err.Some? && err.value.Ctx?) || (err.None? && rendered == 0))
  {
  }
}

=== FILE: extract.dfy ===
/** The archive extractor of http/extract.go over already-decoded archives.

    Both extraction loops run the same per-entry pipeline: take the entry's
    name (for zip, after the filename repair), convert backslashes and clean
    it, refuse it at the zip-slip gate, and otherwise act on the target
    `destination/name`. The first error ends the loop; whatever earlier
    entries wrote stays in place.

    - The zip loop knows two kinds of entry: directories, which get
      `MkdirAll`, and everything else, which is written as a regular file
      (a symbolic-link entry included).
    - The tar loop dispatches on the ustar typeflag of POSIX.1
      (IEEE Std 1003.1, "ustar Interchange Format"): '5' directory,
      '0' regular file; every other type, symbolic ('2') and hard ('1')
      links included, is skipped after the gate has accepted its name. */
module Extract {
  import opened Text
  import opened Paths
  import opened PathGate
  import opened ZipNames
  import opened VirtualFs
  import opened ArchiveNames

  /** An entry's contents as the archive reader delivers them: either the
      whole payload, or some bytes followed by a read error. */
  datatype Payload = Intact(data: Bytes) | Broken(written: Bytes)

  /** A decoded zip central-directory record. `isSymlink` is recorded only to
      show that the extractor ignores it. `opens` says whether opening the
      entry's data stream succeeds. */
  datatype ZipEntry = ZipEntry(
    name: Bytes, flags: bv16, isDir: bool, isSymlink: bool, opens: bool, payload: Payload)

  /** ustar typeflags */
  const TypeReg: byte := 0x30
  const TypeLink: byte := 0x31
  const TypeSymlink: byte := 0x32
  const TypeDir: byte := 0x35

  /** A decoded tar header with the data that follows it. */
  datatype TarHeader = TarHeader(name: Bytes, typeflag: byte, payload: Payload)

  /** How the tar reader's sequence of headers ends: io.EOF or a read error. */
  datatype TarEnd = Eof | HeaderCorrupt

  datatype TarStream = TarStream(headers: seq<TarHeader>, end: TarEnd)

  datatype ExtractError =
    | InvalidPath(name: Bytes)
    | FsFailed(cause: FsError)
    | OpenEntryFailed
    | CopyFailed
    | HeaderFailed
    | OpenArchiveFailed
    | OutsideBase

  /** The filesystem after an extraction step and the error, if any. */
  datatype Outcome = Outcome(fs: Fs, err: Option<ExtractError>)

  /** The bytes a copy writes before it finishes or fails. */
  function Copied(p: Payload): Bytes {
    match p
    case Intact(d) => d
    case Broken(w) => w
  }

  /** filepath.Join(destination, path), as the filesystem resolves it. */
  function TargetKey(destination: Bytes, path: Bytes): Key {
    Resolve(JoinPath(destination, path))
  }

  /** A step removed nothing and changed nothing but `target`, plus
      directories added on the way to `target`; an existing directory at
      `target` stays a directory, and anything else there that changed is now
      a regular file. */
  predicate Frame(before: Fs, after: Fs, target: Key) {
    && (forall q :: q in before && q != target ==> q in after && after[q] == before[q])
    && (forall q :: q in after && q !in before ==> IsPrefix(q, target))
    && (target in before ==> target in after)
    && (target in before && before[target].Directory? ==> after[target] == Directory)
    && (target in before && after[target] != before[target] ==> after[target].File?)
  }

  /** Whether a regular file can be written at `target` in a tree. */
  predicate Writable(fs: Fs, target: Key) {
    target != [] && !Blocked(fs, Parent(target)) && !(target in fs && fs[target].Directory?)
  }

  // ---------------------------------------------------------------------
  // The two actions on an accepted entry

  /** A directory entry: MkdirAll of the target, nothing else. */
  function MakeDir(fs: Fs, target: Key): (o: Outcome)
    ensures AddsDirsTowards(fs, o.fs, target)
    ensures Frame(fs, o.fs, target)
    ensures o.err.None? ==> IsDir(o.fs, target)
    ensures o.err.Some? ==> o.fs == fs
    ensures WellFormed(fs) ==> (o.err.None? <==> !Blocked(fs, target)) && WellFormed(o.fs)
  {
    match MkdirAll(fs, target)
    case Err(e) => Outcome(fs, Some(FsFailed(e)))
    case Ok(fs1) => Outcome(fs1, None)
  }

  /** A regular-file entry: MkdirAll of the parent, open the entry (zip
      only; `opens` is true for tar), create-and-truncate the target, copy. */
  function WriteRegular(fs: Fs, target: Key, opens: bool, payload: Payload): (o: Outcome)
    ensures Frame(fs, o.fs, target)
    ensures o.err.None? ==> payload.Intact? && target in o.fs && o.fs[target] == File(payload.data)
    ensures o.err == Some(CopyFailed) ==> payload.Broken? && target in o.fs && o.fs[target] == File(payload.written)
    ensures WellFormed(fs) ==> WellFormed(o.fs)
    ensures WellFormed(fs) ==> (o.err.None? <==> Writable(fs, target) && opens && payload.Intact?)
  {
    var up := Parent(target);
    match MkdirAll(fs, up)
    case Err(e) => Outcome(fs, Some(FsFailed(e)))
    case Ok(fs1) =>
      assert target !in fs ==> target !in fs1;
      if !opens then Outcome(fs1, Some(OpenEntryFailed))
      else
        match CreateFile(fs1, target, Copied(payload))
        case Err(e) => Outcome(fs1, Some(FsFailed(e)))
        case Ok(fs2) => Outcome(fs2, if payload.Broken? then Some(CopyFailed) else None)
  }

  // ---------------------------------------------------------------------
  // Per-entry steps

  /** The cleaned path a zip entry is validated and written as. */
  function ZipEntryPath(e: ZipEntry, gbk: Bytes -> Option<Bytes>): Bytes {
    EntryPath(DecodeZipFileName(e.name, e.flags, gbk))
  }

  /** extractZipFile */
  function ZipStep(fs: Fs, destination: Bytes, e: ZipEntry, gbk: Bytes -> Option<Bytes>): (o: Outcome)
    ensures var path := ZipEntryPath(e, gbk);
      var target := TargetKey(destination, path);
      && (Rejects(path) ==> o == Outcome(fs, Some(InvalidPath(e.name))))
      && (!Rejects(path) ==> Frame(fs, o.fs, target))
      && (!Rejects(path) && e.isDir ==>
            AddsDirsTowards(fs, o.fs, target) && (o.err.None? ==> IsDir(o.fs, target)))
      && (!Rejects(path) && !e.isDir && o.err.None? ==>
            e.payload.Intact? && target in o.fs && o.fs[target] == File(e.payload.data))
      && (WellFormed(fs) ==> WellFormed(o.fs))
  {
    var path := ZipEntryPath(e, gbk);
    if Rejects(path) then Outcome(fs, Some(InvalidPath(e.name)))
    else
      var target := TargetKey(destination, path);
      if e.isDir then MakeDir(fs, target)
      else WriteRegular(fs, target, e.opens, e.payload)
  }

  /** One iteration of extractTarReader's loop. */
  function TarStep(fs: Fs, destination: Bytes, h: TarHeader): (o: Outcome)
    ensures var path := EntryPath(h.name);
      var target := TargetKey(destination, path);
      && (Rejects(path) ==> o == Outcome(fs, Some(InvalidPath(h.name))))
      && (!Rejects(path) ==> Frame(fs, o.fs, target))
      && (!Rejects(path) && h.typeflag != TypeDir && h.typeflag != TypeReg ==> o == Outcome(fs, None))
      && (!Rejects(path) && h.typeflag == TypeDir ==>
            AddsDirsTowards(fs, o.fs, target) && (o.err.None? ==> IsDir(o.fs, target)))
      && (!Rejects(path) && h.typeflag == TypeReg && o.err.None? ==>
            h.payload.Intact? && target in o.fs && o.fs[target] == File(h.payload.data))
      && (WellFormed(fs) ==> WellFormed(o.fs))
  {
    var path := EntryPath(h.name);
    if Rejects(path) then Outcome(fs, Some(InvalidPath(h.name)))
    else
      var target := TargetKey(destination, path);
      if h.typeflag == TypeDir then MakeDir(fs, target)
      else if h.typeflag == TypeReg then WriteRegular(fs, target, true, h.payload)
      else Outcome(fs, None)
  }

  // ---------------------------------------------------------------------
  // The loops

  /** Entries processed in order until the first error. */
  function Run<E>(fs: Fs, entries: seq<E>, step: (Fs, E) -> Outcome): Outcome
    decreases |entries|
  {
    if entries == [] then Outcome(fs, None)
    else
      var first := step(fs, entries[0]);
      if first.err.Some? then first else Run(first.fs, entries[1..], step)
  }

  /** The loop bodies as steps for Run. */
  function ZipSteps(destination: Bytes, gbk: Bytes -> Option<Bytes>): (Fs, ZipEntry) -> Outcome {
    (f, e) => ZipStep(f, destination, e, gbk)
  }

  function TarSteps(destination: Bytes): (Fs, TarHeader) -> Outcome {
    (f, h) => TarStep(f, destination, h)
  }

  /** extractZip, from the opened archive's list of entries on. */
  function ExtractZip(fs: Fs, destination: Bytes, entries: seq<ZipEntry>, gbk: Bytes -> Option<Bytes>): Outcome {
    Run(fs, entries, ZipSteps(destination, gbk))
  }

  /** extractTarReader's loop over the headers the reader delivered. */
  function TarEntries(fs: Fs, destination: Bytes, headers: seq<TarHeader>): Outcome {
    Run(fs, headers, TarSteps(destination))
  }

  /** extractTarReader: the header loop, then io.EOF ends it with success and
      any other reader error fails it. */
  function ExtractTar(fs: Fs, destination: Bytes, stream: TarStream): (o: Outcome)
    ensures var entries := TarEntries(fs, destination, stream.headers);
      && o.fs == entries.fs
      && (o.err.None? <==> entries.err.None? && stream.end == Eof)
      && (entries.err.Some? ==> o.err == entries.err)
  {
    var entries := TarEntries(fs, destination, stream.headers);
    if entries.err.Some? then entries
    else if stream.end == Eof then entries
    else Outcome(entries.fs, Some(HeaderFailed))
  }

  // ---------------------------------------------------------------------
  // The first error aborts

  lemma {:induction false} RunAppend<E>(fs: Fs, a: seq<E>, b: seq<E>, step: (Fs, E) -> Outcome)
    ensures Run(fs, a + b, step)
         == (var o := Run(fs, a, step); if o.err.Some? then o else Run(o.fs, b, step))
    decreases |a|
  {
    if a == [] {
      assert a + b == b;
    } else {
      assert (a + b)[0] == a[0];
      assert (a + b)[1..] == a[1..] + b;
      RunAppend(step(fs, a[0]).fs, a[1..], b, step);
    }
  }

  /** No entry after a failing one is processed. */
  lemma RunIgnoresEntriesAfterError<E>(fs: Fs, a: seq<E>, b: seq<E>, step: (Fs, E) -> Outcome)
    requires Run(fs, a, step).err.Some?
    ensures Run(fs, a + b, step) == Run(fs, a, step)
  {
    RunAppend(fs, a, b, step);
  }

  /** A failed run is the failure of one entry, reached after all earlier
      entries succeeded, and its filesystem is what that entry left behind
      on top of theirs. */
  lemma {:induction false} RunFailsAtFirstError<E>(fs: Fs, entries: seq<E>, step: (Fs, E) -> Outcome)
    requires Run(fs, entries, step).err.Some?
    ensures exists i ::
              && 0 <= i < |entries|
              && Run(fs, entries[..i], step).err.None?
              && Run(fs, entries, step) == step(Run(fs, entries[..i], step).fs, entries[i])
    decreases |entries|
  {
    var first := step(fs, entries[0]);
    if first.err.Some? {
      assert entries[..0] == [];
      assert Run(fs, entries[..0], step).err.None?;
    } else {
      var rest := entries[1..];
      RunFailsAtFirstError(first.fs, rest, step);
      var j :| 0 <= j < |rest|
        && Run(first.fs, rest[..j], step).err.None?
        && Run(first.fs, rest, step) == step(Run(first.fs, rest[..j], step).fs, rest[j]);
      var pre := entries[..j + 1];
      assert pre[0] == entries[0];
      assert pre[1..] == rest[..j];
      assert Run(fs, pre, step) == Run(first.fs, rest[..j], step);
      assert entries[j + 1] == rest[j];
    }
  }

  // ---------------------------------------------------------------------
  // A successful extraction leaves every regular file's payload

  /** In a successful run, entry `i` is reached and succeeds on what the
      entries before it left behind, and the run goes on from there. */
  lemma RunReaches<E>(fs: Fs, es: seq<E>, step: (Fs, E) -> Outcome, i: nat)
    requires Run(fs, es, step).err.None? && i < |es|
    ensures var before := Run(fs, es[..i], step);
      && before.err.None?
      && step(before.fs, es[i]).err.None?
      && Run(fs, es, step) == Run(step(before.fs, es[i]).fs, es[i + 1..], step)
  {
    assert es == es[..i] + es[i..];
    RunAppend(fs, es[..i], es[i..], step);
    assert es[i..][0] == es[i] && es[i..][1..] == es[i + 1..];
  }

  /** Steps that, when they succeed, change nothing but their entry's
      target and the directories on the way to it. */
  ghost predicate Framed<E(!new)>(step: (Fs, E) -> Outcome, target: E -> Key) {
    forall f, e :: step(f, e).err.None? ==> Frame(f, step(f, e).fs, target(e))
  }

  /** A successful run of framed steps none of which targets `k` leaves the
      node at `k` as it was. */
  lemma {:induction false} RunKeeps<E(!new)>(fs: Fs, es: seq<E>, step: (Fs, E) -> Outcome, target: E -> Key, k: Key)
    requires Framed(step, target)
    requires Run(fs, es, step).err.None?
    requires forall j :: 0 <= j < |es| ==> target(es[j]) != k
    requires k in fs
    ensures var o := Run(fs, es, step);
      k in o.fs && o.fs[k] == fs[k]
    decreases |es|
  {
    if es != [] {
      var first := step(fs, es[0]);
      assert first.err.None? && Frame(fs, first.fs, target(es[0]));
      forall j | 0 <= j < |es[1..]|
        ensures target(es[1..][j]) != k
      {
        assert es[1..][j] == es[j + 1];
      }
      RunKeeps(first.fs, es[1..], step, target, k);
    }
  }

  /** An entry whose step, when it succeeds, leaves `node` at its target,
      and which no later entry targets again, still has `node` there after
      a successful run. */
  lemma RunLeaves<E(!new)>(fs: Fs, es: seq<E>, step: (Fs, E) -> Outcome, target: E -> Key, i: nat, node: Node)
    requires Framed(step, target)
    requires Run(fs, es, step).err.None? && i < |es|
    requires forall f :: step(f, es[i]).err.None? ==>
               target(es[i]) in step(f, es[i]).fs && step(f, es[i]).fs[target(es[i])] == node
    requires forall j :: i < j < |es| ==> target(es[j]) != target(es[i])
    ensures var o := Run(fs, es, step);
      target(es[i]) in o.fs && o.fs[target(es[i])] == node
  {
    RunReaches(fs, es, step, i);
    var after := step(Run(fs, es[..i], step).fs, es[i]).fs;
    var rest := es[i + 1..];
    forall j | 0 <= j < |rest|
      ensures target(rest[j]) != target(es[i])
    {
      assert rest[j] == es[i + 1 + j];
    }
    RunKeeps(after, rest, step, target, target(es[i]));
  }

  function TarTarget(destination: Bytes, h: TarHeader): Key {
    TargetKey(destination, EntryPath(h.name))
  }

  function TarTargets(destination: Bytes): TarHeader -> Key {
    h => TarTarget(destination, h)
  }

  lemma TarStepsFramed(destination: Bytes)
    ensures Framed(TarSteps(destination), TarTargets(destination))
  {
    forall f, h | TarSteps(destination)(f, h).err.None?
      ensures Frame(f, TarSteps(destination)(f, h).fs, TarTargets(destination)(h))
    {
      assert !Rejects(EntryPath(h.name));
    }
  }

  /** Round trip: after a successful tar extraction, each regular-file entry
      that no later entry targets again holds exactly its payload. */
  lemma TarExtractionWritesPayloads(fs: Fs, destination: Bytes, hs: seq<TarHeader>, i: nat)
    requires TarEntries(fs, destination, hs).err.None?
    requires i < |hs| && hs[i].typeflag == TypeReg
    requires forall j :: i < j < |hs| ==> TarTarget(destination, hs[j]) != TarTarget(destination, hs[i])
    ensures hs[i].payload.Intact?
    ensures var o := TarEntries(fs, destination, hs);
      var k := TarTarget(destination, hs[i]);
      k in o.fs && o.fs[k] == File(hs[i].payload.data)
  {
    var step := TarSteps(destination);
    var target := TarTargets(destination);
    TarStepsFramed(destination);
    RunReaches(fs, hs, step, i);
    var reached := step(Run(fs, hs[..i], step).fs, hs[i]);
    assert reached.err.None? && !Rejects(EntryPath(hs[i].name));
    var node := File(hs[i].payload.data);
    forall f | step(f, hs[i]).err.None?
      ensures target(hs[i]) in step(f, hs[i]).fs && step(f, hs[i]).fs[target(hs[i])] == node
    {
      assert !Rejects(EntryPath(hs[i].name));
    }
    RunLeaves(fs, hs, step, target, i, node);
  }

  /** The same for zip: each non-directory entry, symbolic links included,
      ends up as a regular file holding its payload. */
  function ZipTarget(destination: Bytes, e: ZipEntry, gbk: Bytes -> Option<Bytes>): Key {
    TargetKey(destination, ZipEntryPath(e, gbk))
  }

  function ZipTargets(destination: Bytes, gbk: Bytes -> Option<Bytes>): ZipEntry -> Key {
    e => ZipTarget(destination, e, gbk)
  }

  lemma ZipStepsFramed(destination: Bytes, gbk: Bytes -> Option<Bytes>)
    ensures Framed(ZipSteps(destination, gbk), ZipTargets(destination, gbk))
  {
    forall f, e | ZipSteps(destination, gbk)(f, e).err.None?
      ensures Frame(f, ZipSteps(destination, gbk)(f, e).fs, ZipTargets(destination, gbk)(e))
    {
      assert !Rejects(ZipEntryPath(e, gbk));
    }
  }

  lemma ZipExtractionWritesPayloads(fs: Fs, destination: Bytes, es: seq<ZipEntry>,
                                    gbk: Bytes -> Option<Bytes>, i: nat)
    requires ExtractZip(fs, destination, es, gbk).err.None?
    requires i < |es| && !es[i].isDir
    requires forall j :: i < j < |es| ==> ZipTarget(destination, es[j], gbk) != ZipTarget(destination, es[i], gbk)
    ensures es[i].payload.Intact?
    ensures var o := ExtractZip(fs, destination, es, gbk);
      var k := ZipTarget(destination, es[i], gbk);
      k in o.fs && o.fs[k] == File(es[i].payload.data)
  {
    var step := ZipSteps(destination, gbk);
    var target := ZipTargets(destination, gbk);
    ZipStepsFramed(destination, gbk);
    RunReaches(fs, es, step, i);
    var reached := step(Run(fs, es[..i], step).fs, es[i]);
    assert reached.err.None? && !Rejects(ZipEntryPath(es[i], gbk));
    var node := File(es[i].payload.data);
    forall f | step(f, es[i]).err.None?
      ensures target(es[i]) in step(f, es[i]).fs && step(f, es[i]).fs[target(es[i])] == node
    {
      assert !Rejects(ZipEntryPath(es[i], gbk));
    }
    RunLeaves(fs, es, step, target, i, node);
  }

  // ---------------------------------------------------------------------
  // The handler: permission, destination, dispatch

  datatype Status = Extracted | Forbidden | BadRequest | Failed(error: ExtractError)

  datatype Reply = Reply(fs: Fs, status: Status)

  function Finish(o: Outcome): Status {
    match o.err
    case None => Extracted
    case Some(e) => Failed(e)
  }

  /** extractHandler from the destination check on: the destination is
      checked and created before the archive's extension is looked at, so an
      unsupported name is refused only after the destination exists.
      `guardsBase` says whether the user's filesystem is an afero BasePathFs
      whose base is not "/": only such a filesystem refuses, at MkdirAll, a
      destination that climbs above its base (OutsideBase). Any other
      filesystem resolves ".." at the root to the root. The decoded archive
      is given for either reader; None stands for a reader that could not be
      opened. */
  function HandleExtract(fs: Fs, archivePath: Bytes, destination: Bytes, check: Bytes -> bool,
                         guardsBase: bool,
                         zipView: Option<seq<ZipEntry>>, tarView: Option<TarStream>,
                         gbk: Bytes -> Option<Bytes>): (r: Reply)
    ensures !check(destination) ==> r == Reply(fs, Forbidden)
    ensures check(destination) && guardsBase && EscapesBase(destination) ==> r == Reply(fs, Failed(OutsideBase))
    ensures r.status == BadRequest <==>
              && check(destination) && !(guardsBase && EscapesBase(destination))
              && MkdirAll(fs, Resolve(destination)).Ok? && !HasArchiveExtension(archivePath)
    ensures r.status == BadRequest ==> AddsDirsTowards(fs, r.fs, Resolve(destination))
    ensures r.status == Extracted ==> HasArchiveExtension(archivePath)
    ensures check(destination) && !(guardsBase && EscapesBase(destination))
            && MkdirAll(fs, Resolve(destination)).Err? ==>
              r == Reply(fs, Failed(FsFailed(MkdirAll(fs, Resolve(destination)).error)))
    ensures check(destination) && !(guardsBase && EscapesBase(destination))
            && MkdirAll(fs, Resolve(destination)).Ok? ==>
              r == RunExtractor(MkdirAll(fs, Resolve(destination)).value, archivePath, destination,
                                zipView, tarView, gbk)
  {
    DispatchMatchesExtension(archivePath);
    if !check(destination) then Reply(fs, Forbidden)
    else if guardsBase && EscapesBase(destination) then Reply(fs, Failed(OutsideBase))
    else match MkdirAll(fs, Resolve(destination))
      case Err(e) => Reply(fs, Failed(FsFailed(e)))
      case Ok(fs1) => RunExtractor(fs1, archivePath, destination, zipView, tarView, gbk)
  }

  /** The extension dispatch of extractHandler, once the destination exists:
      refuse an unsupported name, fail when the archive cannot be opened,
      and otherwise run the matching extractor. */
  function RunExtractor(fs: Fs, archivePath: Bytes, destination: Bytes,
                        zipView: Option<seq<ZipEntry>>, tarView: Option<TarStream>,
                        gbk: Bytes -> Option<Bytes>): (r: Reply)
    ensures r.status == BadRequest <==> Dispatch(archivePath) == Unsupported
    ensures r.status == BadRequest ==> r.fs == fs
    ensures r.fs == fs || (Dispatch(archivePath) == ZipFormat && zipView.Some?
                           && r.fs == ExtractZip(fs, destination, zipView.value, gbk).fs)
                       || (Dispatch(archivePath) in {TarGzFormat, TarFormat} && tarView.Some?
                           && r.fs == ExtractTar(fs, destination, tarView.value).fs)
    ensures Dispatch(archivePath) == ZipFormat && zipView.Some? ==>
              var o := ExtractZip(fs, destination, zipView.value, gbk);
              && r.fs == o.fs
              && (r.status == Extracted <==> o.err.None?)
              && (o.err.Some? ==> r.status == Failed(o.err.value))
    ensures Dispatch(archivePath) in {TarGzFormat, TarFormat} && tarView.Some? ==>
              var o := ExtractTar(fs, destination, tarView.value);
              && r.fs == o.fs
              && (r.status == Extracted <==> o.err.None?)
              && (o.err.Some? ==> r.status == Failed(o.err.value))
    ensures Dispatch(archivePath) == ZipFormat && zipView.None? ==> r == Reply(fs, Failed(OpenArchiveFailed))
    ensures Dispatch(archivePath) in {TarGzFormat, TarFormat} && tarView.None? ==>
              r == Reply(fs, Failed(OpenArchiveFailed))
  {
    match Dispatch(archivePath)
    case Unsupported => Reply(fs, BadRequest)
    case ZipFormat =>
      (match zipView
       case None => Reply(fs, Failed(OpenArchiveFailed))
       case Some(es) =>
         var o := ExtractZip(fs, destination, es, gbk);
         Reply(o.fs, Finish(o)))
    case _ =>
      (match tarView
       case None => Reply(fs, Failed(OpenArchiveFailed))
       case Some(stream) =>
         var o := ExtractTar(fs, destination, stream);
         Reply(o.fs, Finish(o)))
  }
}

=== FILE: path_gate.dfy ===
/** The zip-slip gate shared by the zip and tar extractors
    (http/extract.go, once per extractor): an archive entry's name has its
    backslashes turned into slashes, is cleaned, and is refused when the result
    starts with "../", starts with "/", or contains "/../".

    Because a cleaned relative path can carry ".." only as leading segments and
    a cleaned rooted path carries none, the three tests refuse every path with
    a ".." segment except the bare name "..". The lemmas below state exactly
    which paths pass. */
module PathGate {
  import opened Text
  import opened Paths

  /** "../" */
  const DotDotSlash: Bytes := [Dot, Dot, Slash]
  /** "/../" */
  const SlashDotDotSlash: Bytes := [Slash, Dot, Dot, Slash]

  /** The traversal test applied to a cleaned entry path. */
  predicate Rejects(p: Bytes) {
    HasPrefix(p, DotDotSlash) || HasPrefix(p, Root) || Contains(p, SlashDotDotSlash)
  }

  /** The path an entry name is validated and extracted as. */
  function EntryPath(name: Bytes): (r: Bytes)
    ensures r != []
    ensures IsRooted(r) <==> |name| > 0 && (name[0] == Slash || name[0] == Backslash)
  {
    Clean(SlashSeparators(name))
  }

  /** The segments Clean keeps for `p`. */
  function Kept(p: Bytes): seq<Bytes> {
    Normalize(IsRooted(p), Split(p))
  }

  // ---------------------------------------------------------------------

  /** A path made of regular segments does not start with "../". */
  lemma RegularJoinNoParentPrefix(segs: seq<Bytes>)
    requires |segs| >= 1
    requires forall k :: 0 <= k < |segs| ==> Regular(segs[k])
    ensures !HasPrefix(Join(segs), DotDotSlash)
  {
    JoinStartsWithFirst(segs);
    HeadNotParent(Join(segs), segs[0], |segs| > 1);
  }

  /** A byte string that starts with the regular segment `b`, followed by a
      slash when `more` holds and by nothing otherwise, does not start with "../". */
  lemma HeadNotParent(c: Bytes, b: Bytes, more: bool)
    requires Regular(b)
    requires |b| <= |c| && c[..|b|] == b
    requires more ==> |c| > |b| && c[|b|] == Slash
    requires !more ==> c == b
    ensures !HasPrefix(c, DotDotSlash)
  {
    if |b| >= 3 {
      assert c[2] == b[2];
    } else if |b| == 2 {
      assert c[..2] == b;
      assert DotDotSlash[..2] == DotDot;
    } else if more {
      assert c[1] == Slash;
    }
  }

  /** A path made of regular segments never contains "/../". */
  lemma {:induction false} RegularJoinHasNoTraversal(segs: seq<Bytes>)
    requires forall k :: 0 <= k < |segs| ==> Regular(segs[k])
    ensures !Contains(Join(segs), SlashDotDotSlash)
    decreases |segs|
  {
    var c := Join(segs);
    if |segs| == 1 {
      forall i | 0 <= i <= |c| - 4
        ensures !OccursAt(c, SlashDotDotSlash, i)
      {
        assert c[i] == segs[0][i] != Slash;
      }
    } else if |segs| > 1 {
      var a := segs[0];
      var rest := segs[1..];
      var tail := Join(rest);
      assert c == a + [Slash] + tail;
      RegularJoinHasNoTraversal(rest);
      RegularJoinNoParentPrefix(rest);
      forall i | 0 <= i <= |c| - 4
        ensures !OccursAt(c, SlashDotDotSlash, i)
      {
        if i < |a| {
          assert c[i] == a[i] != Slash;
        } else if i == |a| {
          assert c[i + 1..i + 4] == tail[..3] != DotDotSlash;
          assert c[i..i + 4][1..] == c[i + 1..i + 4];
        } else {
          var k := i - |a| - 1;
          assert c[i..i + 4] == tail[k..k + 4];
          assert !OccursAt(tail, SlashDotDotSlash, k);
        }
      }
    }
  }

  /** A relative path of regular segments passes all three tests. */
  lemma RegularJoinAccepted(segs: seq<Bytes>)
    requires |segs| >= 1
    requires forall k :: 0 <= k < |segs| ==> Regular(segs[k])
    ensures !Rejects(Join(segs))
  {
    var c := Join(segs);
    JoinStartsWithFirst(segs);
    RegularJoinHasNoTraversal(segs);
    RegularJoinNoParentPrefix(segs);
    assert c[0] == segs[0][0] != Slash;
  }

  /** Exactly which cleaned paths the gate lets through: relative ones whose
      kept segments contain no "..", plus the single path "..". */
  lemma GateVerdict(p: Bytes)
    ensures !Rejects(Clean(p)) <==> !IsRooted(p) && (DotDot !in Kept(p) || Kept(p) == [DotDot])
  {
    var out := Kept(p);
    var c := Clean(p);
    if IsRooted(p) {
      assert HasPrefix(c, Root);
    } else if out == [] {
      assert c == DotName;
    } else if out == [DotDot] {
      assert c == DotDot;
    } else if out[0] == DotDot {
      assert c == DotDot + [Slash] + Join(out[1..]);
      assert c[..3] == DotDotSlash;
      assert DotDot in out;
    } else {
      assert forall k :: 0 <= k < |out| ==> out[k] != DotDot;
      assert DotDot !in out;
      RegularJoinAccepted(out);
    }
  }

  /** An accepted entry path is ".", "..", or a relative path all of whose
      segments are regular names: the only accepted path with a ".." segment
      is ".." itself. */
  lemma AcceptedShape(name: Bytes)
    ensures var c := EntryPath(name);
      !Rejects(c) ==>
        && !IsRooted(c)
        && (c == DotName || c == DotDot || forall k :: 0 <= k < |Split(c)| ==> Regular(Split(c)[k]))
  {
    var p := SlashSeparators(name);
    var c := Clean(p);
    var out := Kept(p);
    GateVerdict(p);
    if !Rejects(c) && out != [] && out != [DotDot] {
      SplitJoin(out);
      assert c == Join(out);
      assert forall k :: 0 <= k < |out| ==> out[k] != DotDot;
    }
  }

  /** Corollary: an accepted path that still names a ".." segment is exactly
      "..". */
  lemma AcceptedDotDotIsBare(name: Bytes)
    ensures var c := EntryPath(name);
      !Rejects(c) && DotDot in Split(c) ==> c == DotDot
  {
    var c := EntryPath(name);
    AcceptedShape(name);
    SplitSlashFree(DotName);
    if !Rejects(c) && c != DotName && c != DotDot {
      assert forall k :: 0 <= k < |Split(c)| ==> Regular(Split(c)[k]);
      var segs := Split(c);
      assert forall k :: 0 <= k < |segs| ==> segs[k] != DotDot;
      assert DotDot !in segs;
    }
  }

  /** Every name that is rooted once its backslashes are converted is
      refused, e.g. "/etc/passwd" and "\etc\passwd". */
  lemma RootedNamesRejected(name: Bytes)
    requires IsRooted(SlashSeparators(name))
    ensures Rejects(EntryPath(name))
  {
  }

  /** The gate refuses nothing it should accept: a relative name made of
      regular segments is its own entry path and passes. */
  lemma RegularNamesAccepted(segs: seq<Bytes>)
    requires |segs| >= 1
    requires forall k :: 0 <= k < |segs| ==> Regular(segs[k]) && Backslash !in segs[k]
    ensures EntryPath(Join(segs)) == Join(segs)
    ensures !Rejects(EntryPath(Join(segs)))
  {
    JoinAvoids(segs, Backslash);
    assert SlashSeparators(Join(segs)) == Join(segs);
    RegularJoinAccepted(segs);
    CanonicalFixed(segs);
  }

  lemma CanonicalFixed(segs: seq<Bytes>)
    requires |segs| >= 1
    requires forall k :: 0 <= k < |segs| ==> Regular(segs[k])
    ensures Clean(Join(segs)) == Join(segs)
  {
    var c := Join(segs);
    JoinStartsWithFirst(segs);
    assert c[0] == segs[0][0];
    assert !IsRooted(c);
    assert SlashFree(segs);
    SplitJoin(segs);
    assert Canonical(false, segs);
    assert [] + segs == segs;
    FoldCanonical(false, [], segs);
    assert Normalize(false, Split(c)) == segs;
  }
}

=== FILE: paths.dfy ===
/** Go's `path` package, lexically: `Clean` and `Join` on slash-separated byte
    strings. Nothing here touches a filesystem.

    `Clean` is modelled the way Go documents it: split the path on '/', fold
    the segments left to right (drop empty and "." segments; ".." removes the
    preceding non-".." segment, and otherwise is dropped in a rooted path and
    kept in a relative one), then render the survivors, giving "/" or "." when
    nothing survives. */
module Paths {
  import opened Text

  /** strings.Split(s, "/"): the maximal slash-free runs of `s`, in order. */
  function Split(s: Bytes): (segs: seq<Bytes>)
    ensures |segs| >= 1
    ensures forall i :: 0 <= i < |segs| ==> Slash !in segs[i]
    decreases |s|
  {
    if s == [] then [[]]
    else
      var rest := Split(s[1..]);
      if s[0] == Slash then [[]] + rest
      else [[s[0]] + rest[0]] + rest[1..]
  }

  /** strings.Join(segs, "/") */
  function Join(segs: seq<Bytes>): Bytes
    decreases |segs|
  {
    if |segs| == 0 then []
    else if |segs| == 1 then segs[0]
    else segs[0] + [Slash] + Join(segs[1..])
  }

  predicate IsRooted(p: Bytes) {
    |p| > 0 && p[0] == Slash
  }

  predicate SlashFree(segs: seq<Bytes>) {
    forall i :: 0 <= i < |segs| ==> Slash !in segs[i]
  }

  /** A segment that names a child: not empty, not ".", not "..". */
  predicate Regular(seg: Bytes) {
    seg != [] && seg != DotName && seg != DotDot && Slash !in seg
  }

  /** The shape of a cleaned segment list: regular segments, except that a
      relative path may start with a run of ".." segments; a rooted path has
      no ".." at all. */
  predicate Canonical(rooted: bool, out: seq<Bytes>) {
    && (forall i :: 0 <= i < |out| ==> Regular(out[i]) || out[i] == DotDot)
    && (forall i, j :: 0 <= i < j < |out| && out[j] == DotDot ==> out[i] == DotDot)
    && (rooted ==> DotDot !in out)
  }

  /** One iteration of Clean's loop over the next segment. */
  function Step(rooted: bool, out: seq<Bytes>, seg: Bytes): (r: seq<Bytes>)
    requires Canonical(rooted, out)
    requires Slash !in seg
    ensures Canonical(rooted, r)
  {
    if seg == [] || seg == DotName then out
    else if seg == DotDot then
      if |out| > 0 && out[|out| - 1] != DotDot then out[..|out| - 1]
      else if rooted then out
      else out + [DotDot]
    else out + [seg]
  }

  /** Clean's loop: the segments folded into `out` from left to right. */
  function Fold(rooted: bool, out: seq<Bytes>, segs: seq<Bytes>): (r: seq<Bytes>)
    requires Canonical(rooted, out)
    requires SlashFree(segs)
    ensures Canonical(rooted, r)
    decreases |segs|
  {
    if segs == [] then out
    else Fold(rooted, Step(rooted, out, segs[0]), segs[1..])
  }

  function Normalize(rooted: bool, segs: seq<Bytes>): seq<Bytes>
    requires SlashFree(segs)
  {
    Fold(rooted, [], segs)
  }

  /** path.Clean */
  function Clean(p: Bytes): (r: Bytes)
    ensures r != []
    ensures IsRooted(r) <==> IsRooted(p)
  {
    var rooted := IsRooted(p);
    var out := Normalize(rooted, Split(p));
    if rooted then [Slash] + Join(out)
    else if out == [] then DotName
    else
      JoinStartsWithFirst(out);
      Join(out)
  }

  /** path.Join(a, b): empty elements are ignored; otherwise the elements are
      joined with '/' and cleaned. */
  function JoinPath(a: Bytes, b: Bytes): (r: Bytes)
    ensures a != [] || b != [] ==> r != []
    ensures IsRooted(a) ==> IsRooted(r)
  {
    if a == [] && b == [] then []
    else if a == [] then Clean(b)
    else Clean(a + [Slash] + b)
  }

  /** The segments a path designates below the filesystem root: the path is
      cleaned as if rooted, so ".." at the root stays at the root. */
  function Resolve(p: Bytes): seq<Bytes> {
    Normalize(true, Split(p))
  }

  /** A path that, cleaned relative to a base directory, climbs above it. A
      filesystem rooted at a base directory (afero's BasePathFs) refuses such
      a name with os.ErrNotExist instead of resolving it. */
  predicate EscapesBase(p: Bytes) {
    var free := Normalize(false, Split(p));
    |free| > 0 && free[0] == DotDot
  }

  // ---------------------------------------------------------------------
  // Split and Join are inverse

  lemma JoinStartsWithFirst(segs: seq<Bytes>)
    requires |segs| >= 1
    ensures |segs[0]| <= |Join(segs)|
    ensures Join(segs)[..|segs[0]|] == segs[0]
    ensures |segs| > 1 ==> |Join(segs)| > |segs[0]| && Join(segs)[|segs[0]|] == Slash
  {
  }

  lemma {:induction false} JoinSplit(s: Bytes)
    ensures Join(Split(s)) == s
    decreases |s|
  {
    if s != [] {
      var rest := Split(s[1..]);
      JoinSplit(s[1..]);
      if s[0] == Slash {
        assert ([[]] + rest)[1..] == rest;
      } else if |rest| > 1 {
        var segs := [[s[0]] + rest[0]] + rest[1..];
        assert segs[1..] == rest[1..];
      }
      assert s == [s[0]] + s[1..];
    }
  }

  lemma {:induction false} SplitSlashFree(a: Bytes)
    requires Slash !in a
    ensures Split(a) == [a]
    decreases |a|
  {
    if a != [] {
      SplitSlashFree(a[1..]);
      assert a == [a[0]] + a[1..];
    }
  }

  lemma {:induction false} SplitAround(a: Bytes, b: Bytes)
    ensures Split(a + [Slash] + b) == Split(a) + Split(b)
    decreases |a|
  {
    var s := a + [Slash] + b;
    if a == [] {
      assert s == [Slash] + b;
      assert s[1..] == b;
    } else {
      assert s[0] == a[0];
      assert s[1..] == a[1..] + [Slash] + b;
      SplitAround(a[1..], b);
      var left := Split(a[1..]);
      if a[0] != Slash {
        GlueFirst(a[0], left, Split(b));
      } else {
        assert [[]] + (left + Split(b)) == ([[]] + left) + Split(b);
      }
    }
  }

  /** Extending the first segment commutes with appending more segments. */
  lemma GlueFirst(x: byte, left: seq<Bytes>, tail: seq<Bytes>)
    requires |left| >= 1
    ensures var r := left + tail;
      [[x] + r[0]] + r[1..] == ([[x] + left[0]] + left[1..]) + tail
  {
    var r := left + tail;
    assert r[0] == left[0];
    assert r[1..] == left[1..] + tail;
  }

  lemma {:induction false} SplitJoin(segs: seq<Bytes>)
    requires |segs| >= 1
    requires SlashFree(segs)
    ensures Split(Join(segs)) == segs
    decreases |segs|
  {
    if |segs| == 1 {
      SplitSlashFree(segs[0]);
    } else {
      SplitSlashFree(segs[0]);
      SplitAround(segs[0], Join(segs[1..]));
      SplitJoin(segs[1..]);
      assert segs == [segs[0]] + segs[1..];
    }
  }

  /** Join adds only separators: a byte found in no segment is absent. */
  lemma {:induction false} JoinAvoids(segs: seq<Bytes>, b: byte)
    requires b != Slash
    requires forall k :: 0 <= k < |segs| ==> b !in segs[k]
    ensures b !in Join(segs)
    decreases |segs|
  {
    if |segs| > 1 {
      JoinAvoids(segs[1..], b);
    }
  }

  // ---------------------------------------------------------------------
  // Clean

  /** Folding a list that is already in canonical shape changes nothing. */
  lemma {:induction false} FoldCanonical(rooted: bool, out: seq<Bytes>, segs: seq<Bytes>)
    requires Canonical(rooted, out + segs)
    requires Canonical(rooted, out)
    requires SlashFree(segs)
    ensures Fold(rooted, out, segs) == out + segs
    decreases |segs|
  {
    if segs != [] {
      var s0 := segs[0];
      assert (out + segs)[|out|] == s0;
      if s0 == DotDot && |out| > 0 {
        assert (out + segs)[|out| - 1] == out[|out| - 1];
      }
      var next := Step(rooted, out, s0);
      assert next == out + [s0];
      assert next + segs[1..] == out + segs;
      FoldCanonical(rooted, next, segs[1..]);
    }
  }

  /** Clean(Clean(p)) == Clean(p): a cleaned path is a fixed point. */
  lemma CleanIdempotent(p: Bytes)
    ensures Clean(Clean(p)) == Clean(p)
  {
    var rooted := IsRooted(p);
    var out := Normalize(rooted, Split(p));
    var c := Clean(p);
    if rooted {
      ResolveClean(p);
      assert Normalize(true, Split(c)) == out;
    } else if out == [] {
      SplitSlashFree(DotName);
      assert Split(c) == [DotName];
      assert Step(false, [], DotName) == [];
      assert Fold(false, [], [DotName]) == Fold(false, [], []);
    } else {
      JoinStartsWithFirst(out);
      assert c[0] == out[0][0];
      assert !IsRooted(c);
      SplitJoin(out);
      assert [] + out == out;
      FoldCanonical(false, [], out);
      assert Normalize(false, Split(c)) == out;
    }
  }
  // ---------------------------------------------------------------------
  // Resolving joined and cleaned paths

  /** Folding a concatenation folds the parts one after the other. */
  lemma {:induction false} FoldAppend(rooted: bool, out: seq<Bytes>, s1: seq<Bytes>, s2: seq<Bytes>)
    requires Canonical(rooted, out)
    requires SlashFree(s1) && SlashFree(s2)
    ensures SlashFree(s1 + s2)
    ensures Fold(rooted, out, s1 + s2) == Fold(rooted, Fold(rooted, out, s1), s2)
    decreases |s1|
  {
    forall i | 0 <= i < |s1 + s2|
      ensures Slash !in (s1 + s2)[i]
    {
      if i < |s1| {
        assert (s1 + s2)[i] == s1[i];
      } else {
        assert (s1 + s2)[i] == s2[i - |s1|];
      }
    }
    if s1 == [] {
      assert s1 + s2 == s2;
    } else {
      assert (s1 + s2)[0] == s1[0];
      assert (s1 + s2)[1..] == s1[1..] + s2;
      FoldAppend(rooted, Step(rooted, out, s1[0]), s1[1..], s2);
    }
  }

  /** The first `n` segments of `o` are all "..". */
  predicate LeadingParents(o: seq<Bytes>, n: int) {
    0 <= n <= |o| && forall i :: 0 <= i < n ==> o[i] == DotDot
  }

  /** One step keeps "the rooted list is the relative list minus its leading
      '..' segments". */
  lemma StepDropsParents(o: seq<Bytes>, t: seq<Bytes>, n: int, seg: Bytes) returns (n': int)
    requires Canonical(false, o) && Canonical(true, t)
    requires LeadingParents(o, n) && t == o[n..]
    requires Slash !in seg
    ensures LeadingParents(Step(false, o, seg), n')
    ensures Step(true, t, seg) == Step(false, o, seg)[n'..]
  {
    n' := n;
    if seg == DotDot {
      if |o| > 0 && o[|o| - 1] != DotDot {
        assert |o| - 1 >= n;
        assert t[|t| - 1] == o[|o| - 1];
        assert t[..|t| - 1] == o[..|o| - 1][n..];
      } else {
        assert forall i :: 0 <= i < |o| ==> o[i] == DotDot;
        assert forall x :: x in t ==> x == DotDot;
        assert t == [];
        n' := |o| + 1;
      }
    } else if seg != [] && seg != DotName {
      assert (o + [seg])[n..] == t + [seg];
    }
  }

  /** Cleaning as a rooted path yields the relative result without its
      leading ".." segments. */
  lemma {:induction false} FoldDropsParents(o: seq<Bytes>, t: seq<Bytes>, n: int, segs: seq<Bytes>) returns (n': int)
    requires Canonical(false, o) && Canonical(true, t)
    requires LeadingParents(o, n) && t == o[n..]
    requires SlashFree(segs)
    ensures LeadingParents(Fold(false, o, segs), n')
    ensures Fold(true, t, segs) == Fold(false, o, segs)[n'..]
    decreases |segs|
  {
    if segs == [] {
      n' := n;
    } else {
      var m := StepDropsParents(o, t, n, segs[0]);
      n' := FoldDropsParents(Step(false, o, segs[0]), Step(true, t, segs[0]), m, segs[1..]);
    }
  }

  /** The filesystem does not see the difference between a path and its
      cleaned form. */
  lemma ResolveClean(p: Bytes)
    ensures Resolve(Clean(p)) == Resolve(p)
  {
    if IsRooted(p) {
      ResolveCleanRooted(p);
    } else {
      ResolveCleanRelative(p);
    }
  }

  lemma ResolveCleanRooted(p: Bytes)
    requires IsRooted(p)
    ensures Resolve(Clean(p)) == Resolve(p)
  {
    var c := Clean(p);
    var out := Normalize(true, Split(p));
    assert Step(true, [], []) == [];
    if out == [] {
      assert c == [] + [Slash] + [];
      SplitAround([], []);
      assert Split(c) == [[], []];
      assert Fold(true, [], [[]]) == [];
      var two: seq<Bytes> := [[], []];
      assert two[1..] == [[]];
    } else {
      assert c == [] + [Slash] + Join(out);
      SplitAround([], Join(out));
      SplitJoin(out);
      assert Split(c) == [[]] + out;
      assert [] + out == out;
      FoldCanonical(true, [], out);
      assert ([[]] + out)[1..] == out;
      assert Fold(true, [], [[]] + out) == Fold(true, [], out);
    }
  }

  lemma ResolveCleanRelative(p: Bytes)
    requires !IsRooted(p)
    ensures Resolve(Clean(p)) == Resolve(p)
  {
    var out := Normalize(false, Split(p));
    var n := FoldDropsParents([], [], 0, Split(p));
    if out == [] {
      SplitSlashFree(DotName);
      assert Step(true, [], DotName) == [];
      assert Fold(true, [], [DotName]) == Fold(true, [], []);
    } else {
      SplitJoin(out);
      var ups, rest := out[..n], out[n..];
      assert out == ups + rest;
      FoldAppend(true, [], ups, rest);
      ParentsVanishAtRoot(ups);
      assert [] + rest == rest;
      FoldCanonical(true, [], rest);
    }
  }

  /** ".." segments at the root stay at the root. */
  lemma {:induction false} ParentsVanishAtRoot(ups: seq<Bytes>)
    requires forall i :: 0 <= i < |ups| ==> ups[i] == DotDot
    ensures SlashFree(ups)
    ensures Fold(true, [], ups) == []
    decreases |ups|
  {
    if ups != [] {
      ParentsVanishAtRoot(ups[1..]);
    }
  }

  /** path.Join followed by resolution: resolve the first path, then walk the
      second one's segments from there. */
  lemma ResolveJoinPath(a: Bytes, b: Bytes)
    ensures Resolve(JoinPath(a, b)) == Fold(true, Resolve(a), Split(b))
  {
    assert Step(true, [], []) == [];
    assert Resolve([]) == [];
    if a == [] && b == [] {
    } else if a == [] {
      ResolveClean(b);
    } else {
      ResolveClean(a + [Slash] + b);
      SplitAround(a, b);
      FoldAppend(true, [], Split(a), Split(b));
    }
  }

  // ---------------------------------------------------------------------
  // Clamping ".." at the root matters only for escaping paths

  /** A relative segment list that starts with ".." keeps its leading ".."
      whatever follows. */
  lemma {:induction false} FoldKeepsLeadingParent(out: seq<Bytes>, segs: seq<Bytes>)
    requires Canonical(false, out) && SlashFree(segs)
    requires |out| > 0 && out[0] == DotDot
    ensures var r := Fold(false, out, segs); |r| > 0 && r[0] == DotDot
    decreases |segs|
  {
    if segs != [] {
      var next := Step(false, out, segs[0]);
      assert |next| > 0 && next[0] == DotDot;
      FoldKeepsLeadingParent(next, segs[1..]);
    }
  }

  /** Folding from a list without "..": either the relative fold climbs
      above the start, or the rooted and relative folds agree. */
  lemma {:induction false} FoldClampsOnlyAboveStart(out: seq<Bytes>, segs: seq<Bytes>)
    requires Canonical(true, out) && SlashFree(segs)
    ensures var free := Fold(false, out, segs);
            (|free| > 0 && free[0] == DotDot) || free == Fold(true, out, segs)
    decreases |segs|
  {
    if segs != [] {
      var seg := segs[0];
      if seg == DotDot && out == [] {
        assert Step(false, out, seg) == [DotDot];
        FoldKeepsLeadingParent([DotDot], segs[1..]);
      } else {
        assert Step(false, out, seg) == Step(true, out, seg);
        FoldClampsOnlyAboveStart(Step(true, out, seg), segs[1..]);
      }
    }
  }

  /** Resolving clamps ".." at the root; that clamp changes the result
      exactly for the paths that escape their base. */
  lemma ResolveUnclampedUnlessEscaping(p: Bytes)
    ensures Resolve(p) == Normalize(false, Split(p)) <==> !EscapesBase(p)
  {
    FoldClampsOnlyAboveStart([], Split(p));
    if EscapesBase(p) {
      assert DotDot !in Resolve(p);
    }
  }
}

=== FILE: safety.dfy ===
/** What the zip-slip gate of http/extract.go buys.

    The gate lets exactly one name with a ".." segment through: the bare
    "..", whose target is the destination's parent. That parent already
    exists as a directory (the handler creates the destination first), so a
    directory entry there is a no-op and a file entry there fails to open. As a
    result an extraction never adds, removes or changes anything outside the
    destination's subtree; the handler itself only adds the destination's
    missing ancestors. */
module Safety {
  import opened Text
  import opened Paths
  import opened PathGate
  import opened ZipNames
  import opened VirtualFs
  import opened Extract

  /** `q` lies strictly inside the directory `d`. */
  predicate Below(d: Key, q: Key) {
    |q| > |d| && q[..|d|] == d
  }

  /** Nothing outside the strict subtree of `d` was added, removed or changed. */
  predicate Confined(before: Fs, after: Fs, d: Key) {
    && (forall q :: q in before && !Below(d, q) ==> q in after && after[q] == before[q])
    && (forall q :: q in after && !Below(d, q) ==> q in before)
  }

  // ---------------------------------------------------------------------
  // Where an accepted entry lands

  lemma RegularAppend(d: seq<Bytes>, segs: seq<Bytes>)
    requires Canonical(true, d)
    requires forall k :: 0 <= k < |segs| ==> Regular(segs[k])
    ensures Canonical(true, d + segs)
    ensures SlashFree(segs)
  {
    forall i | 0 <= i < |d + segs|
      ensures Regular((d + segs)[i])
    {
      if i < |d| {
        assert (d + segs)[i] == d[i];
        assert d[i] != DotDot;
      } else {
        assert (d + segs)[i] == segs[i - |d|];
      }
    }
  }

  /** An accepted entry's target is the destination itself (name "."), the
      destination's parent (name ".."), or a node strictly inside the
      destination. */
  lemma AcceptedTarget(destination: Bytes, name: Bytes)
    requires !Rejects(EntryPath(name))
    ensures var d := Resolve(destination);
      var t := TargetKey(destination, EntryPath(name));
      t == d || (d != [] && t == Parent(d)) || Below(d, t)
  {
    var c := EntryPath(name);
    var d := Resolve(destination);
    ResolveJoinPath(destination, c);
    AcceptedShape(name);
    if c == DotName {
      SplitSlashFree(DotName);
      assert Fold(true, d, [DotName]) == Fold(true, d, []);
    } else if c == DotDot {
      SplitSlashFree(DotDot);
      assert Fold(true, d, [DotDot]) == Fold(true, Step(true, d, DotDot), []);
      assert d != [] ==> d[|d| - 1] != DotDot;
    } else {
      var segs := Split(c);
      RegularAppend(d, segs);
      FoldCanonical(true, d, segs);
      assert (d + segs)[..|d|] == d;
    }
  }

  // ---------------------------------------------------------------------
  // One step stays inside

  lemma PrefixesStored(fs: Fs, t: Key)
    requires WellFormed(fs) && IsDir(fs, t)
    ensures forall n :: 0 < n <= |t| ==> t[..n] in fs && fs[t[..n]].Directory?
    ensures t != [] ==> IsDir(fs, Parent(t))
  {
    assert t[..|t|] == t;
  }

  /** A step that obeys the frame of its target, where the target is the
      existing destination, its parent, or inside it, is confined to the
      destination and keeps it a directory. */
  lemma FrameConfined(before: Fs, after: Fs, t: Key, d: Key)
    requires WellFormed(before) && WellFormed(after) && IsDir(before, d)
    requires Frame(before, after, t)
    requires t == d || (d != [] && t == Parent(d)) || Below(d, t)
    ensures Confined(before, after, d)
    ensures IsDir(after, d)
  {
    PrefixesStored(before, d);
    if d != [] {
      PrefixesStored(before, Parent(d));
    }
    if Below(d, t) {
      forall n | 0 < n <= |t| && !Below(d, t[..n])
        ensures t[..n] in before
      {
        assert t[..n] == d[..n];
      }
    } else {
      PrefixesStored(before, t);
    }
    assert WellFormed(after) ==> [] !in after;
  }

  lemma ZipStepConfined(fs: Fs, destination: Bytes, e: ZipEntry, gbk: Bytes -> Option<Bytes>)
    requires WellFormed(fs) && IsDir(fs, Resolve(destination))
    ensures var o := ZipStep(fs, destination, e, gbk);
      WellFormed(o.fs) && IsDir(o.fs, Resolve(destination)) && Confined(fs, o.fs, Resolve(destination))
  {
    var o := ZipStep(fs, destination, e, gbk);
    var path := ZipEntryPath(e, gbk);
    if !Rejects(path) {
      AcceptedTarget(destination, DecodeZipFileName(e.name, e.flags, gbk));
      FrameConfined(fs, o.fs, TargetKey(destination, path), Resolve(destination));
    }
  }

  lemma TarStepConfined(fs: Fs, destination: Bytes, h: TarHeader)
    requires WellFormed(fs) && IsDir(fs, Resolve(destination))
    ensures var o := TarStep(fs, destination, h);
      WellFormed(o.fs) && IsDir(o.fs, Resolve(destination)) && Confined(fs, o.fs, Resolve(destination))
  {
    var o := TarStep(fs, destination, h);
    var path := EntryPath(h.name);
    if !Rejects(path) {
      AcceptedTarget(destination, h.name);
      FrameConfined(fs, o.fs, TargetKey(destination, path), Resolve(destination));
    }
  }

  // ---------------------------------------------------------------------
  // Whole extractions stay inside

  /** Steps that, from a tree holding the directory `d`, keep it a tree
      holding `d` and change nothing outside `d`'s subtree. */
  ghost predicate KeepsConfined<E(!new)>(step: (Fs, E) -> Outcome, d: Key) {
    forall f, e :: WellFormed(f) && IsDir(f, d) ==>
      WellFormed(step(f, e).fs) && IsDir(step(f, e).fs, d) && Confined(f, step(f, e).fs, d)
  }

  /** A run of such steps, stopped by an error or not, is confined to `d`. */
  lemma {:induction false} RunConfined<E(!new)>(fs: Fs, es: seq<E>, step: (Fs, E) -> Outcome, d: Key)
    requires KeepsConfined(step, d)
    requires WellFormed(fs) && IsDir(fs, d)
    ensures var o := Run(fs, es, step);
      WellFormed(o.fs) && IsDir(o.fs, d) && Confined(fs, o.fs, d)
    decreases |es|
  {
    if es != [] {
      var first := step(fs, es[0]);
      if first.err.None? {
        RunConfined(first.fs, es[1..], step, d);
      }
    }
  }

  lemma ZipStepsConfined(destination: Bytes, gbk: Bytes -> Option<Bytes>)
    ensures KeepsConfined(ZipSteps(destination, gbk), Resolve(destination))
  {
    forall f, e | WellFormed(f) && IsDir(f, Resolve(destination))
      ensures var o := ZipSteps(destination, gbk)(f, e);
        WellFormed(o.fs) && IsDir(o.fs, Resolve(destination)) && Confined(f, o.fs, Resolve(destination))
    {
      ZipStepConfined(f, destination, e, gbk);
    }
  }

  lemma TarStepsConfined(destination: Bytes)
    ensures KeepsConfined(TarSteps(destination), Resolve(destination))
  {
    forall f, h | WellFormed(f) && IsDir(f, Resolve(destination))
      ensures var o := TarSteps(destination)(f, h);
        WellFormed(o.fs) && IsDir(o.fs, Resolve(destination)) && Confined(f, o.fs, Resolve(destination))
    {
      TarStepConfined(f, destination, h);
    }
  }

  /** Extracting a zip archive into an existing directory, successful or not,
      leaves everything outside that directory as it was. */
  lemma ZipExtractionConfined(fs: Fs, destination: Bytes, es: seq<ZipEntry>, gbk: Bytes -> Option<Bytes>)
    requires WellFormed(fs) && IsDir(fs, Resolve(destination))
    ensures var o := ExtractZip(fs, destination, es, gbk);
      WellFormed(o.fs) && IsDir(o.fs, Resolve(destination)) && Confined(fs, o.fs, Resolve(destination))
  {
    ZipStepsConfined(destination, gbk);
    RunConfined(fs, es, ZipSteps(destination, gbk), Resolve(destination));
  }

  /** The same for tar and gzip-compressed tar archives. */
  lemma TarEntriesConfined(fs: Fs, destination: Bytes, hs: seq<TarHeader>)
    requires WellFormed(fs) && IsDir(fs, Resolve(destination))
    ensures var o := TarEntries(fs, destination, hs);
      WellFormed(o.fs) && IsDir(o.fs, Resolve(destination)) && Confined(fs, o.fs, Resolve(destination))
  {
    TarStepsConfined(destination);
    RunConfined(fs, hs, TarSteps(destination), Resolve(destination));
  }

  lemma TarExtractionConfined(fs: Fs, destination: Bytes, stream: TarStream)
    requires WellFormed(fs) && IsDir(fs, Resolve(destination))
    ensures var o := ExtractTar(fs, destination, stream);
      WellFormed(o.fs) && IsDir(o.fs, Resolve(destination)) && Confined(fs, o.fs, Resolve(destination))
  {
    TarEntriesConfined(fs, destination, stream.headers);
  }

  /** The extraction request as a whole: it removes and changes nothing
      outside the destination's subtree, and what it adds lies inside the
      destination or is one of the destination's own ancestors. */
  lemma HandlerConfined(fs: Fs, archivePath: Bytes, destination: Bytes, check: Bytes -> bool,
                        guardsBase: bool, zipView: Option<seq<ZipEntry>>, tarView: Option<TarStream>,
                        gbk: Bytes -> Option<Bytes>)
    requires WellFormed(fs)
    ensures var r := HandleExtract(fs, archivePath, destination, check, guardsBase, zipView, tarView, gbk);
      var d := Resolve(destination);
      && WellFormed(r.fs)
      && (forall q :: q in fs && !Below(d, q) ==> q in r.fs && r.fs[q] == fs[q])
      && (forall q :: q in r.fs && q !in fs ==> IsPrefix(q, d) || Below(d, q))
  {
    var d := Resolve(destination);
    if check(destination) && MkdirAll(fs, d).Ok? {
      var fs1 := MkdirAll(fs, d).value;
      ExtractorsConfined(fs1, archivePath, destination, zipView, tarView, gbk);
    }
  }

  /** Once the destination exists, whatever the handler runs is confined to it. */
  lemma ExtractorsConfined(fs: Fs, archivePath: Bytes, destination: Bytes,
                           zipView: Option<seq<ZipEntry>>, tarView: Option<TarStream>,
                           gbk: Bytes -> Option<Bytes>)
    requires WellFormed(fs) && IsDir(fs, Resolve(destination))
    ensures var r := RunExtractor(fs, archivePath, destination, zipView, tarView, gbk);
      WellFormed(r.fs) && Confined(fs, r.fs, Resolve(destination))
  {
    ZipExtractionConfinedAll(fs, destination, zipView, gbk);
    TarExtractionConfinedAll(fs, destination, tarView);
  }

  lemma ZipExtractionConfinedAll(fs: Fs, destination: Bytes, zipView: Option<seq<ZipEntry>>,
                                 gbk: Bytes -> Option<Bytes>)
    requires WellFormed(fs) && IsDir(fs, Resolve(destination))
    ensures zipView.Some? ==>
      var o := ExtractZip(fs, destination, zipView.value, gbk);
      WellFormed(o.fs) && Confined(fs, o.fs, Resolve(destination))
  {
    if zipView.Some? {
      ZipExtractionConfined(fs, destination, zipView.value, gbk);
    }
  }

  lemma TarExtractionConfinedAll(fs: Fs, destination: Bytes, tarView: Option<TarStream>)
    requires WellFormed(fs) && IsDir(fs, Resolve(destination))
    ensures tarView.Some? ==>
      var o := ExtractTar(fs, destination, tarView.value);
      WellFormed(o.fs) && Confined(fs, o.fs, Resolve(destination))
  {
    if tarView.Some? {
      TarExtractionConfined(fs, destination, tarView.value);
    }
  }
  // ---------------------------------------------------------------------
  // The zip-slip scenario

  /** "/d" resolves to the single segment d. */
  lemma ResolveRootChild(d: Bytes)
    requires Regular(d)
    ensures Resolve(Root + d) == [d]
  {
    var destination := Root + d;
    assert destination == [] + [Slash] + d;
    SplitAround([], d);
    SplitSlashFree(d);
    assert Split(destination) == [[], d];
    assert Step(true, [], []) == [];
    var one: seq<Bytes> := [[], d];
    assert one[1..] == [d];
    assert Fold(true, [], one) == Fold(true, [], [d]);
    assert Step(true, [], d) == [d];
    assert Fold(true, [], [d]) == Fold(true, [d], []);
  }

  /** "/.." climbs above the user's base directory. A base-path filesystem
      with a base other than "/" refuses it before anything is created; any
      other filesystem takes it as the root, and the archive is extracted
      there into the unchanged tree. */
  lemma ParentDestination(fs: Fs, archivePath: Bytes, check: Bytes -> bool, guardsBase: bool,
                          zipView: Option<seq<ZipEntry>>, tarView: Option<TarStream>,
                          gbk: Bytes -> Option<Bytes>)
    requires check(Root + DotDot)
    ensures var r := HandleExtract(fs, archivePath, Root + DotDot, check, guardsBase, zipView, tarView, gbk);
      && (guardsBase ==> r == Reply(fs, Failed(OutsideBase)))
      && (!guardsBase ==> r == RunExtractor(fs, archivePath, Root + DotDot, zipView, tarView, gbk))
    ensures Resolve(Root + DotDot) == []
  {
    var p := Root + DotDot;
    assert p == [] + [Slash] + DotDot;
    SplitAround([], DotDot);
    SplitSlashFree(DotDot);
    assert Split(p) == [[], DotDot];
    var segs: seq<Bytes> := [[], DotDot];
    assert segs[1..] == [DotDot] && segs[1..][1..] == [];
    assert Fold(false, [], segs) == Fold(false, [], [DotDot]) == Fold(false, [DotDot], []);
    assert Fold(true, [], segs) == Fold(true, [], [DotDot]) == Fold(true, [], []);
    assert EscapesBase(p);
    assert MkdirAll(fs, Resolve(p)) == Ok(fs);
  }

  /** `a/b` is accepted and, extracted into "/d", lands at [d, a, b]. */
  lemma PlainEntryLands(a: Bytes, b: Bytes, d: Bytes)
    requires Regular(a) && Regular(b) && Regular(d)
    requires Backslash !in a && Backslash !in b
    ensures EntryPath(Join([a, b])) == Join([a, b])
    ensures !Rejects(Join([a, b]))
    ensures TargetKey(Root + d, Join([a, b])) == [d, a, b]
  {
    RegularNamesAccepted([a, b]);
    ResolveRootChild(d);
    ResolveJoinPath(Root + d, Join([a, b]));
    SplitJoin([a, b]);
    FoldCanonical(true, [d], [a, b]);
    assert [d] + [a, b] == [d, a, b];
  }

  /** `a/../../c` cleans to "../c" and is refused. */
  lemma EscapingEntryRejected(a: Bytes, c: Bytes)
    requires Regular(a) && Regular(c)
    requires Backslash !in a && Backslash !in c
    ensures Rejects(EntryPath(Join([a, DotDot, DotDot, c])))
  {
    var segs: seq<Bytes> := [a, DotDot, DotDot, c];
    var name := Join(segs);
    JoinAvoids(segs, Backslash);
    assert SlashSeparators(name) == name;
    SplitJoin(segs);
    JoinStartsWithFirst(segs);
    assert name[0] == a[0];
    assert !IsRooted(name);
    KeptEscape(a, c);
    GateVerdict(name);
  }

  lemma KeptEscape(a: Bytes, c: Bytes)
    requires Regular(a) && Regular(c)
    ensures SlashFree([a, DotDot, DotDot, c])
    ensures Normalize(false, [a, DotDot, DotDot, c]) == [DotDot, c]
  {
    assert [a, DotDot, DotDot, c] == [a, DotDot] + [DotDot, c];
    UpAndBack(a);
    UpThenDown(c);
    FoldAppend(false, [], [a, DotDot], [DotDot, c]);
  }

  /** "a/.." cancels out. */
  lemma UpAndBack(a: Bytes)
    requires Regular(a)
    ensures SlashFree([a, DotDot])
    ensures Fold(false, [], [a, DotDot]) == []
  {
    var segs: seq<Bytes> := [a, DotDot];
    assert segs[1..] == [DotDot] && segs[1..][1..] == [];
    assert Step(false, [], a) == [a];
    assert Step(false, [a], DotDot) == [];
    assert Fold(false, [], segs) == Fold(false, [a], segs[1..]);
    assert Fold(false, [a], segs[1..]) == Fold(false, [], []);
  }

  /** A relative "../c" is already clean. */
  lemma UpThenDown(c: Bytes)
    requires Regular(c)
    ensures SlashFree([DotDot, c])
    ensures Fold(false, [], [DotDot, c]) == [DotDot, c]
  {
    var segs: seq<Bytes> := [DotDot, c];
    assert segs[1..] == [c] && segs[1..][1..] == [];
    assert Step(false, [], DotDot) == [DotDot];
    assert Step(false, [DotDot], c) == [DotDot, c];
    assert Fold(false, [], segs) == Fold(false, [DotDot], segs[1..]);
    assert Fold(false, [DotDot], segs[1..]) == Fold(false, [DotDot, c], []);
  }

  /** Two entries, the first succeeding and the second failing: the run is
      the second entry's outcome, whatever follows. */
  lemma RunSecondFails<E>(fs: Fs, x: E, y: E, more: seq<E>, step: (Fs, E) -> Outcome)
    requires step(fs, x).err.None?
    requires step(step(fs, x).fs, y).err.Some?
    ensures Run(fs, [x, y] + more, step) == step(step(fs, x).fs, y)
  {
    var es := [x, y] + more;
    assert es[0] == x;
    assert es[1..] == [y] + more;
    assert ([y] + more)[0] == y;
  }

  /** A zip archive holding `a/b` and then `a/../../c` (regular names,
      UTF-8 flag set), extracted into an empty tree at "/d": `/d/a/b` receives
      its payload, the second entry stops the extraction with InvalidPath,
      nothing after it is looked at, and only `/d/a/b` and its ancestors
      exist afterwards, so `c` appears nowhere. */
  lemma ZipSlipScenario(a: Bytes, b: Bytes, c: Bytes, d: Bytes, data: Bytes, junk: Bytes,
                        more: seq<ZipEntry>, gbk: Bytes -> Option<Bytes>)
    requires Regular(a) && Regular(b) && Regular(c) && Regular(d)
    requires Backslash !in a && Backslash !in b && Backslash !in c
    ensures var good := ZipEntry(Join([a, b]), Utf8Flag, false, false, true, Intact(data));
      var evil := ZipEntry(Join([a, DotDot, DotDot, c]), Utf8Flag, false, false, true, Intact(junk));
      var o := ExtractZip(map[], Root + d, [good, evil] + more, gbk);
      && o.err == Some(InvalidPath(evil.name))
      && [d, a, b] in o.fs && o.fs[[d, a, b]] == File(data)
      && (forall q :: q in o.fs ==> IsPrefix(q, [d, a, b]))
  {
    var good := ZipEntry(Join([a, b]), Utf8Flag, false, false, true, Intact(data));
    var evil := ZipEntry(Join([a, DotDot, DotDot, c]), Utf8Flag, false, false, true, Intact(junk));
    var destination := Root + d;
    var first := GoodEntryWritten(a, b, d, data, gbk);
    EscapingEntryRejected(a, c);
    var second := ZipStep(first.fs, destination, evil, gbk);
    assert second == Outcome(first.fs, Some(InvalidPath(evil.name)));
    RunSecondFails(map[], good, evil, more, ZipSteps(destination, gbk));
  }

  /** The first entry of the scenario, `a/b`, is written to [d, a, b] and
      creates nothing else but its ancestors. */
  lemma GoodEntryWritten(a: Bytes, b: Bytes, d: Bytes, data: Bytes, gbk: Bytes -> Option<Bytes>)
    returns (first: Outcome)
    requires Regular(a) && Regular(b) && Regular(d)
    requires Backslash !in a && Backslash !in b
    ensures first == ZipStep(map[], Root + d, ZipEntry(Join([a, b]), Utf8Flag, false, false, true, Intact(data)), gbk)
    ensures first.err.None?
    ensures [d, a, b] in first.fs && first.fs[[d, a, b]] == File(data)
    ensures forall q :: q in first.fs ==> IsPrefix(q, [d, a, b])
  {
    var good := ZipEntry(Join([a, b]), Utf8Flag, false, false, true, Intact(data));
    PlainEntryLands(a, b, d);
    first := ZipStep(map[], Root + d, good, gbk);
    assert Writable(map[], [d, a, b]);
  }
}

=== FILE: text.dfy ===
/** Byte strings and the handful of Go `strings` operations the file manager's
    HTTP handlers use. A Go `string` is an immutable sequence of bytes, so every
    name and path in this model is a `Bytes` value. */
module Text {

  type byte = b: int | 0 <= b < 256

  type Bytes = seq<byte>

  /** An optional value: the answer of an oracle that may have none (GBK
      decoding, ctx.Err()), an error that may be absent, or an archive view
      that exists only when the archive could be opened. */
  datatype Option<+T> = None | Some(value: T)

  const Slash: byte := 0x2F
  const Dot: byte := 0x2E
  const Backslash: byte := 0x5C

  /** "." */
  const DotName: Bytes := [Dot]
  /** ".." */
  const DotDot: Bytes := [Dot, Dot]
  /** "/" */
  const Root: Bytes := [Slash]

  /** strings.HasPrefix */
  predicate HasPrefix(s: Bytes, prefix: Bytes) {
    |prefix| <= |s| && s[..|prefix|] == prefix
  }

  /** strings.HasSuffix */
  predicate HasSuffix(s: Bytes, suffix: Bytes) {
    |suffix| <= |s| && s[|s| - |suffix|..] == suffix
  }

  /** `sub` occurs in `s` starting at index `i`. */
  predicate OccursAt(s: Bytes, sub: Bytes, i: int) {
    0 <= i <= |s| - |sub| && s[i..i + |sub|] == sub
  }

  /** strings.Contains */
  predicate Contains(s: Bytes, sub: Bytes) {
    exists i :: 0 <= i <= |s| - |sub| && OccursAt(s, sub, i)
  }

  /** Lower-case mapping of one byte: only the ASCII letters A-Z change. */
  function LowerByte(b: byte): (r: byte)
    ensures 0x41 <= b <= 0x5A ==> r == b + 0x20
    ensures !(0x41 <= b <= 0x5A) ==> r == b
  {
    if 0x41 <= b <= 0x5A then b + 0x20 else b
  }

  /** Lower-casing of the ASCII letters, every other byte kept: the case
      change under which archive-name matching is shown to be insensitive. */
  function ToLower(s: Bytes): (r: Bytes)
    ensures |r| == |s|
    ensures forall i :: 0 <= i < |s| ==> r[i] == LowerByte(s[i])
  {
    seq(|s|, i requires 0 <= i < |s| => LowerByte(s[i]))
  }

  /** strings.ReplaceAll(s, "\\", "/"): Windows separators become '/'. */
  function SlashSeparators(s: Bytes): (r: Bytes)
    ensures |r| == |s|
    ensures Backslash !in r
    ensures forall i :: 0 <= i < |s| ==> r[i] == (if s[i] == Backslash then Slash else s[i])
  {
    seq(|s|, i requires 0 <= i < |s| => if s[i] == Backslash then Slash else s[i])
  }

  /** The last rune of a string when it lowers to an ASCII byte: that byte,
      and how many bytes the rune takes. */
  datatype LoweredRune = LoweredRune(ascii: byte, width: nat)

  /** The runes that lower to an ASCII byte are that byte itself, its
      upper-case letter, U+0130 (LATIN CAPITAL LETTER I WITH DOT ABOVE, bytes
      C4 B0) for 'i', and U+212A (KELVIN SIGN, bytes E2 84 AA) for 'k'. No
      byte of a multi-byte UTF-8 sequence is ASCII, and neither C4 nor E2 can
      continue an earlier sequence, so the last bytes tell which case applies;
      an invalid byte decodes to U+FFFD, which lowers to itself. */
  function LastRuneLowered(s: Bytes): (r: Option<LoweredRune>)
    ensures r.Some? ==> 1 <= r.value.width <= |s|
  {
    var n := |s|;
    if n >= 1 && s[n - 1] < 0x80 then Some(LoweredRune(LowerByte(s[n - 1]), 1))
    else if n >= 2 && s[n - 2] == 0xC4 && s[n - 1] == 0xB0 then Some(LoweredRune(0x69, 2))
    else if n >= 3 && s[n - 3] == 0xE2 && s[n - 2] == 0x84 && s[n - 1] == 0xAA then Some(LoweredRune(0x6B, 3))
    else None
  }

  /** strings.HasSuffix(strings.ToLower(s), suffix) for an ASCII `suffix`.
      ToLower works rune by rune, and a rune lowered to something other than
      one ASCII byte yields no ASCII byte at all, so the lowered string ends
      in `suffix` exactly when the last |suffix| runes of `s` lower to its
      bytes. */
  predicate HasFoldedSuffix(s: Bytes, suffix: Bytes)
    decreases |suffix|
  {
    if suffix == [] then true
    else match LastRuneLowered(s)
      case None => false
      case Some(rune) =>
        && rune.ascii == suffix[|suffix| - 1]
        && HasFoldedSuffix(s[..|s| - rune.width], suffix[..|suffix| - 1])
  }

  /** Every byte of the suffix comes from at least one byte of the name, so a
      name with a folded match is at least as long as the suffix. */
  lemma {:induction false} FoldedSuffixLength(s: Bytes, suffix: Bytes)
    requires HasFoldedSuffix(s, suffix)
    ensures |suffix| <= |s|
    decreases |suffix|
  {
    if suffix != [] {
      var rune := LastRuneLowered(s).value;
      FoldedSuffixLength(s[..|s| - rune.width], suffix[..|suffix| - 1]);
    }
  }

  /** A suffix test on strings that end in one more byte each. */
  lemma SuffixSnoc(a: Bytes, x: byte, b: Bytes, y: byte)
    ensures HasSuffix(a + [x], b + [y]) <==> x == y && HasSuffix(a, b)
  {
    var s, t := a + [x], b + [y];
    if |t| <= |s| {
      var tail := s[|s| - |t|..];
      assert tail == a[|a| - |b|..] + [x];
      if tail == t {
        assert a[|a| - |b|..] == tail[..|b|] == t[..|b|] == b;
        assert x == tail[|b|] == t[|b|] == y;
      }
    }
  }

  /** On an ASCII name the folded match is the plain suffix test on the
      lower-cased name. */
  lemma {:induction false} FoldedSuffixOfAscii(s: Bytes, suffix: Bytes)
    requires forall i :: 0 <= i < |s| ==> s[i] < 0x80
    ensures HasFoldedSuffix(s, suffix) <==> HasSuffix(ToLower(s), suffix)
    decreases |suffix|
  {
    if suffix == [] {
      assert ToLower(s)[|s|..] == [];
    } else if |s| >= 1 {
      var rest, c := suffix[..|suffix| - 1], suffix[|suffix| - 1];
      var init, last := s[..|s| - 1], s[|s| - 1];
      FoldedSuffixOfAscii(init, rest);
      assert LastRuneLowered(s) == Some(LoweredRune(LowerByte(last), 1));
      assert ToLower(s) == ToLower(init) + [LowerByte(last)];
      assert suffix == rest + [c];
      SuffixSnoc(ToLower(init), LowerByte(last), rest, c);
    }
  }

  /** Lowering the ASCII letters does not change which rune ends a string or
      what it lowers to. */
  lemma LastRuneIgnoresCase(s: Bytes)
    ensures LastRuneLowered(ToLower(s)) == LastRuneLowered(s)
  {
  }

  /** Changing the case of ASCII letters does not change the folded match. */
  lemma {:induction false} FoldedSuffixIgnoresCase(s: Bytes, suffix: Bytes)
    ensures HasFoldedSuffix(ToLower(s), suffix) == HasFoldedSuffix(s, suffix)
    decreases |suffix|
  {
    if suffix != [] {
      LastRuneIgnoresCase(s);
      match LastRuneLowered(s)
      case None =>
      case Some(rune) =>
        var k := |s| - rune.width;
        assert ToLower(s)[..k] == ToLower(s[..k]);
        FoldedSuffixIgnoresCase(s[..k], suffix[..|suffix| - 1]);
    }
  }
}

=== FILE: vfs.dfy ===
/** The virtual filesystem the extractor writes into, reduced to what the
    extraction code relies on: directories, regular files with contents,
    `MkdirAll` and opening a file for writing with create-and-truncate.

    A node is addressed by its segment list below the root; the root itself is
    always a directory and never stored. */
module VirtualFs {
  import opened Text

  datatype Node = Directory | File(data: Bytes)

  type Key = seq<Bytes>

  type Fs = map<Key, Node>

  datatype FsError = NotADirectory | IsADirectory | ParentMissing

  datatype Result<T> = Ok(value: T) | Err(error: FsError)

  /** The directory holding `k`; the root is its own parent. */
  function Parent(k: Key): (r: Key)
    ensures k != [] ==> |r| == |k| - 1 && r == k[..|r|]
    ensures k == [] ==> r == []
  {
    if k == [] then [] else k[..|k| - 1]
  }

  predicate IsDir(fs: Fs, k: Key) {
    k == [] || (k in fs && fs[k].Directory?)
  }

  /** A tree: the root is not stored, and every proper ancestor of a stored
      node is a stored directory. */
  predicate WellFormed(fs: Fs) {
    && [] !in fs
    && forall k, n :: k in fs && 0 < n < |k| ==> k[..n] in fs && fs[k[..n]].Directory?
  }

  /** Some ancestor of `k`, or `k` itself, is a regular file. */
  predicate Blocked(fs: Fs, k: Key) {
    exists n :: 0 < n <= |k| && k[..n] in fs && fs[k[..n]].File?
  }

  predicate IsPrefix(q: Key, k: Key) {
    |q| <= |k| && k[..|q|] == q
  }

  /** `after` keeps every node of `before` and adds only directories on the
      way to `k`. */
  predicate AddsDirsTowards(before: Fs, after: Fs, k: Key) {
    && (forall q :: q in before ==> q in after && after[q] == before[q])
    && (forall q :: q in after && q !in before ==> after[q] == Directory && IsPrefix(q, k))
  }

  /** os.MkdirAll: succeed at once when `k` is a directory, fail when it is
      a file, and otherwise create the parent first and then `k`. */
  function MkdirAll(fs: Fs, k: Key): (r: Result<Fs>)
    ensures r.Ok? ==> AddsDirsTowards(fs, r.value, k)
    ensures r.Ok? ==> IsDir(r.value, k)
    ensures r.Err? ==> Blocked(fs, k) && r.error == NotADirectory
    ensures WellFormed(fs) ==> (r.Ok? <==> !Blocked(fs, k))
    ensures WellFormed(fs) && r.Ok? ==> WellFormed(r.value)
    ensures WellFormed(fs) && r.Ok? ==> forall n :: 0 <= n <= |k| ==> IsDir(r.value, k[..n])
    decreases |k|
  {
    if k == [] then Ok(fs)
    else if k in fs then
      if fs[k].Directory? then
        StoredDirNotBlocked(fs, k);
        Ok(fs)
      else
        assert k[..|k|] == k;
        Err(NotADirectory)
    else
      var up := k[..|k| - 1];
      match MkdirAll(fs, up)
      case Err(e) =>
        assert forall n :: 0 < n <= |up| ==> up[..n] == k[..n];
        Err(e)
      case Ok(fs1) =>
        MkdirAllStep(fs, fs1, k, up);
        Ok(fs1[k := Directory])
  }

  lemma StoredDirNotBlocked(fs: Fs, k: Key)
    requires k in fs && fs[k].Directory?
    ensures WellFormed(fs) ==> !Blocked(fs, k)
    ensures WellFormed(fs) ==> forall n :: 0 <= n <= |k| ==> IsDir(fs, k[..n])
  {
    assert k[..|k|] == k;
  }

  lemma MkdirAllStep(fs: Fs, fs1: Fs, k: Key, up: Key)
    requires k != [] && k !in fs && up == k[..|k| - 1]
    requires AddsDirsTowards(fs, fs1, up)
    requires IsDir(fs1, up)
    requires WellFormed(fs) ==> (!Blocked(fs, up) && WellFormed(fs1))
    requires WellFormed(fs) ==> forall n :: 0 <= n <= |up| ==> IsDir(fs1, up[..n])
    ensures k !in fs1
    ensures AddsDirsTowards(fs, fs1[k := Directory], k)
    ensures WellFormed(fs) ==> !Blocked(fs, k) && WellFormed(fs1[k := Directory])
    ensures WellFormed(fs) ==> forall n :: 0 <= n <= |k| ==> IsDir(fs1[k := Directory], k[..n])
  {
    var fs2 := fs1[k := Directory];
    forall q | q in fs2 && q !in fs
      ensures fs2[q] == Directory && IsPrefix(q, k)
    {
      if q != k {
        assert IsPrefix(q, up);
        assert k[..|q|] == up[..|q|];
      }
    }
    if WellFormed(fs) {
      forall n | 0 < n <= |k| && k[..n] in fs
        ensures fs[k[..n]].Directory?
      {
        assert n < |k|;
        assert up[..n] == k[..n];
      }
      forall q, n | q in fs2 && 0 < n < |q|
        ensures q[..n] in fs2 && fs2[q[..n]].Directory?
      {
        if q == k {
          assert up[..n] == k[..n];
          assert IsDir(fs1, up[..n]);
        }
      }
      forall n | 0 <= n <= |k|
        ensures IsDir(fs2, k[..n])
      {
        if n < |k| {
          assert up[..n] == k[..n];
        } else {
          assert k[..n] == k;
        }
      }
    }
  }

  /** afero OpenFile with O_WRONLY|O_CREATE|O_TRUNC followed by writing
      `data`: a directory cannot be opened for writing and the parent must be
      a directory. The file ends up holding exactly `data`. */
  function CreateFile(fs: Fs, k: Key, data: Bytes): (r: Result<Fs>)
    ensures r.Ok? <==> k != [] && !(k in fs && fs[k].Directory?) && IsDir(fs, Parent(k))
    ensures r.Ok? ==> k in r.value && r.value[k] == File(data)
    ensures r.Ok? ==> forall q :: q != k ==> (q in r.value <==> q in fs) && (q in fs ==> r.value[q] == fs[q])
    ensures WellFormed(fs) && r.Ok? ==> WellFormed(r.value)
  {
    if k == [] || (k in fs && fs[k].Directory?) then Err(IsADirectory)
    else if !IsDir(fs, Parent(k)) then Err(ParentMissing)
    else
      CreateFileKeepsTree(fs, k, data);
      Ok(fs[k := File(data)])
  }

  lemma CreateFileKeepsTree(fs: Fs, k: Key, data: Bytes)
    requires k != [] && !(k in fs && fs[k].Directory?) && IsDir(fs, Parent(k))
    ensures WellFormed(fs) ==> WellFormed(fs[k := File(data)])
  {
    var fs2 := fs[k := File(data)];
    if WellFormed(fs) {
      forall q, n | q in fs2 && 0 < n < |q|
        ensures q[..n] in fs2 && fs2[q[..n]].Directory?
      {
        if q == k {
          var p := Parent(k);
          if n == |p| {
            assert q[..n] == p;
          } else {
            assert p[..n] == q[..n];
          }
          assert q[..n] != k;
        } else {
          assert q in fs;
          assert q[..n] != k;
        }
      }
    }
  }
}

=== FILE: zip_names.dfy ===
/** Repair of zip entry names stored in a legacy code page
    (decodeZipFileName in http/extract.go).

    A zip entry whose general-purpose flag bit 11 (the "Language encoding flag
    (EFS)" of PKWARE's APPNOTE.TXT, section 4.4.4) is set stores its name in
    UTF-8. Without the flag the name is used as stored when it is plain ASCII;
    otherwise it is decoded as GBK, and the decoding is kept only when it
    succeeds and yields well-formed UTF-8. The GBK decoder itself is a
    parameter: a partial function from bytes to bytes. */
module ZipNames {
  import opened Text

  /** Bit 11 of the general-purpose flags. */
  const Utf8Flag: bv16 := 0x0800

  predicate IsContinuation(b: byte) {
    0x80 <= b <= 0xBF
  }

  /** Well-formed UTF-8 as in RFC 3629, section 4: what utf8.ValidString
      accepts (no overlong forms, no surrogates, nothing above U+10FFFF). */
  predicate ValidUtf8(s: Bytes)
    decreases |s|
  {
    if s == [] then true
    else if s[0] < 0x80 then ValidUtf8(s[1..])
    else if 0xC2 <= s[0] <= 0xDF then
      |s| >= 2 && IsContinuation(s[1]) && ValidUtf8(s[2..])
    else if 0xE0 <= s[0] <= 0xEF then
      && |s| >= 3
      && (if s[0] == 0xE0 then 0xA0 <= s[1] <= 0xBF
          else if s[0] == 0xED then 0x80 <= s[1] <= 0x9F
          else IsContinuation(s[1]))
      && IsContinuation(s[2])
      && ValidUtf8(s[3..])
    else if 0xF0 <= s[0] <= 0xF4 then
      && |s| >= 4
      && (if s[0] == 0xF0 then 0x90 <= s[1] <= 0xBF
          else if s[0] == 0xF4 then 0x80 <= s[1] <= 0x8F
          else IsContinuation(s[1]))
      && IsContinuation(s[2])
      && IsContinuation(s[3])
      && ValidUtf8(s[4..])
    else false
  }

  /** Ranging over a Go string yields a rune above 127 exactly when some
      rune starts with a byte of 0x80 or more: a multi-byte sequence encodes
      at least U+0080 and an invalid byte decodes to U+FFFD. The first such
      byte always starts a rune, since every rune before it is one byte long. */
  predicate HasNonAsciiRune(s: Bytes) {
    exists i :: 0 <= i < |s| && s[i] >= 0x80
  }

  predicate IsAscii(s: Bytes) {
    forall i :: 0 <= i < |s| ==> s[i] < 0x80
  }

  /** ASCII text is well-formed UTF-8. */
  lemma {:induction false} AsciiIsValidUtf8(s: Bytes)
    requires IsAscii(s)
    ensures ValidUtf8(s)
    decreases |s|
  {
    if s != [] {
      AsciiIsValidUtf8(s[1..]);
    }
  }

  /** decodeZipFileName */
  function DecodeZipFileName(name: Bytes, flags: bv16, gbk: Bytes -> Option<Bytes>): (r: Bytes)
    ensures flags & Utf8Flag != 0 ==> r == name
    ensures IsAscii(name) ==> r == name
    ensures r == name || (gbk(name) == Some(r) && ValidUtf8(r))
    ensures (flags & Utf8Flag == 0 && !IsAscii(name) && gbk(name).Some? && ValidUtf8(gbk(name).value))
              ==> r == gbk(name).value
  {
    FastPathIsAscii(name);
    if flags & Utf8Flag != 0 then name
    else if ValidUtf8(name) && !HasNonAsciiRune(name) then name
    else match gbk(name)
      case None => name
      case Some(decoded) => if ValidUtf8(decoded) then decoded else name
  }

  /** The valid-and-no-rune-above-127 test of the fast path is exactly "every
      byte is ASCII". */
  lemma FastPathIsAscii(name: Bytes)
    ensures ValidUtf8(name) && !HasNonAsciiRune(name) <==> IsAscii(name)
  {
    if IsAscii(name) {
      AsciiIsValidUtf8(name);
    }
  }

  /** Decoding never turns a well-formed name into an ill-formed one, and a
      name the decoder changed is always well-formed. */
  lemma DecodePreservesValidity(name: Bytes, flags: bv16, gbk: Bytes -> Option<Bytes>)
    ensures ValidUtf8(name) ==> ValidUtf8(DecodeZipFileName(name, flags, gbk))
    ensures DecodeZipFileName(name, flags, gbk) != name ==> ValidUtf8(DecodeZipFileName(name, flags, gbk))
  {
  }
}
